=== FILE: README.md ===
# Exam timetable scheduler — a verified model of the scheduling pipeline

The scheduler reads (student, exam) participation records and produces an exam timetable. It never
puts two exams that share a student in the same time slot. `app.py` does this in four steps. This
project models each step in Dafny and proves what each one promises.

1. **Grouping** (`Grouping`). Each record's student is added to its exam's set. The exams are listed
   in the order in which they are first met. Python's insertion-ordered dict is modelled as a
   Dafny map together with the sequence of its keys in insertion order.
2. **Conflict graph** (`ConflictGraph`). There is one vertex per exam. The `for i / for j > i` scan
   adds an undirected edge whenever two exams' student sets intersect. `BuildGraph` and `ScanRowOf`
   are the two nested loops. The ghost functions `ScanRow` and `ScanRows` describe the adjacency
   after each step of those loops.
3. **Largest-first greedy colouring** (`LargestFirst`, `Greedy`). `networkx.greedy_color` with
   `strategy='largest_first'` is written out:
   - The vertices are sorted once by descending degree. The sort is stable, so ties keep the graph's
     vertex order, which is the exams' first-seen order (`SortByDegree`, `LargestFirstOrder`).
   - Each vertex, in that order, gets the least slot that no already-coloured neighbour uses
     (`GreedyColor`, `LeastUnused`).
   - `Coloring` is the specification function of that loop.
4. **Timetable** (`Timetable`, `ExamNames`).
   - The slot map is inverted into slot → exams lists in colouring order (`GroupBySlot`).
   - The lists are then flattened into rows labelled `slot + 1`, with slots ascending and exam names
     ascending within a slot (`Flatten`, `SortNames`).
   - Python's string order (code point by code point, a proper prefix first) is `NotAfter`.

`Scheduler.Schedule` chains the four steps. `ConflictsOf`, `SlotsFor` and `TimetableFor` say what
each stage yields for a list of records. The `...Spec` lemmas state the end-to-end guarantees.

## Model

| member | source | states |
|---|---|---|
| Grouping.FirstSeen | app.py:28 | The key order of the grouping has no duplicates and holds exactly the exams named in the records (with FirstSeenPrefix: in the order each is first met). |
| Grouping.GroupRecords | app.py:21-28 | The grouping loop yields exactly the exam → set-of-students map of the records. Its key list is the first-seen order, has no duplicates and holds exactly the grouped exams. An exam is a key iff some record names it. A student is in an exam's set iff that (student, exam) record occurs. |
| Grouping.GroupingExact | app.py:23-25 | For a grouped exam, a student is in its set iff the matching record is present. |
| Grouping.DuplicateRecordIgnored | app.py:23-25 | Appending a record already seen changes neither the grouping nor the first-seen exam order. |
| Grouping.SameRecordsSameGrouping | app.py:21-25 | Two record lists with the same set of records group identically, whatever their order or multiplicity. |
| Grouping.FirstSeenDuplicate | app.py:23-28 | A repeated record anywhere after its first occurrence leaves the exam key order unchanged. |
| Grouping.DedupFacts | app.py:23-28 | Dropping every repeated record leaves each record once, the same set of records and the same exam key order. |
| Grouping.FirstSeenPrefix | app.py:28 | The exam order of any prefix of the records is a prefix of the full exam order, so an exam met earlier is listed earlier. |
| Grouping.SharedStudent | app.py:35 | Two grouped exams' student sets intersect iff some student has a record for both. |
| ConflictGraph.Clash | app.py:35 | The `&` test: two grouped exams clash iff some student is in both of their sets. |
| ConflictGraph.ClashSymmetric | app.py:35 | The intersection test gives the same answer for (a, b) and (b, a). |
| ConflictGraph.AddEdge | app.py:36 | `graph.add_edge` keeps the vertex set. |
| ConflictGraph.AddEdgeAdjacency | app.py:36 | After adding the edge, a and b are neighbours of each other, and every other adjacency is unchanged. |
| ConflictGraph.PairEdge | app.py:34-36 | One pass of the inner-loop body keeps the vertex set and, when the two exams clash, makes them neighbours of each other. ScanRowEdges states its whole effect. |
| ConflictGraph.ScanRowEdges | app.py:33-36 | After the inner loop for row i has reached column j, b is adjacent to a iff it already was, or {a, b} is a pair (exams[i], exams[i+1..j]) whose student sets intersect. |
| ConflictGraph.ScanRowsEdges | app.py:32-36 | After i outer iterations over distinct exams, b is adjacent to a iff they are distinct exams, their sets intersect, and one of them is among the first i. |
| ConflictGraph.ScanGraph | app.py:29-36 | The completed scan gives a valid undirected graph with no self-loops, whose edges are exactly the pairs of distinct exams with a common student. |
| ConflictGraph.ScanRowOf | app.py:33-36 | The inner `for j` loop leaves the adjacency equal to `ScanRow` for the whole row. |
| ConflictGraph.BuildGraph | app.py:29-36 | The graph has the exams as vertices, in their given order. Its adjacency is the full scan. It is valid. Two exams are adjacent iff they differ and share a student. |
| ConflictGraph.NeighboursAreOtherVertices | app.py:39 | `Neighbours` is `G[u]`: in a valid graph, the neighbours of an exam are other vertices, never the exam itself. |
| ConflictGraph.Degree | app.py:39 | `G.degree`, the sort key of the largest-first order: the number of neighbours, zero exactly when the exam has none. |
| LargestFirst.SortByDegree | app.py:39 | The sort returns as many exams as it is given, in descending degree order. SortByDegreeSorted adds that it is a permutation, and SortByDegreeStable that ties keep their input order. |
| LargestFirst.LargestFirstOrder | app.py:39 | The processing order has one entry per vertex, in descending degree order. LargestFirstOrderSpec adds that every vertex occurs exactly once and that ties follow the graph's vertex order. |
| LargestFirst.InsertByDegreePermutes | app.py:39 | Inserting a vertex into the degree-ordered list adds exactly that vertex. |
| LargestFirst.InsertKeepsOrder | app.py:39 | Insertion keeps a list in descending degree order. |
| LargestFirst.InsertStable | app.py:39 | Insertion appends the new vertex after every vertex of equal degree already present (stability). |
| LargestFirst.SortByDegreeSorted | app.py:39 | The largest-first sort is a permutation of its input, in descending degree order. |
| LargestFirst.SortByDegreeStable | app.py:39 | For every degree, the vertices of that degree keep their input order. |
| LargestFirst.LargestFirstOrderSpec | app.py:39 | The largest-first order lists every vertex of the graph exactly once, in descending degree order, with ties in the graph's vertex order. |
| Greedy.Coloring | app.py:39 | The greedy slot map colours exactly the exams of the order. ColoringGreedy, ColoringProper and ColoringWithinDegree state what each slot is. |
| Greedy.SlotsOf | app.py:39 | The slots held by the already-coloured members of a set of exams (greedy_color's neighbour colours). When the set covers every coloured exam, these are all the slots in use. |
| Greedy.FirstFree | app.py:39 | The chosen slot is unused, and every smaller slot is used. |
| Greedy.LeastUnused | app.py:39 | The counting loop returns the least slot not in the used set. |
| Greedy.GreedyColor | app.py:39 | The colouring loop visits the largest-first order and returns `Coloring` of it. Every vertex gets a slot. Adjacent exams never share a slot. Each slot is at most the exam's degree. |
| Greedy.ColoringProper | app.py:39 | Over a valid graph and a duplicate-free order, no two adjacent coloured exams share a slot. |
| Greedy.ColoringWithinDegree | app.py:39 | Every exam's slot is at most its degree. |
| Greedy.ColoringGreedy | app.py:39 | Each exam's final slot is not used by its earlier neighbours, and every smaller slot is used by one of them. |
| Greedy.ColoringContiguous | app.py:39 | The slots used form a range with no gaps: below any used slot, every slot is used. |
| Greedy.MaxDegree | app.py:39 | The largest degree over a list of exams: no exam exceeds it, and a non-empty list has an exam that reaches it. |
| Greedy.SlotCountBound | app.py:39 | At most max-degree + 1 distinct slots are used. |
| Greedy.NoConflictsOneSlot | app.py:39 | When no exam has a conflict, every exam gets slot 0. |
| Greedy.AllConflictingAllSlots | app.py:39 | When all exams pairwise conflict, the i-th exam gets slot i and exactly slots 0..n-1 are used. |
| ExamNames.NotAfter | app.py:48 | Python's `<=` on strings: a name at or before every name it is a prefix of. NotAfterTotal, NotAfterTransitive and NotAfterAntisymmetric make it a total order. |
| ExamNames.NotAfterTotal | app.py:48 | Any two exam names are comparable. |
| ExamNames.NotAfterTransitive | app.py:48 | The name order is transitive. |
| ExamNames.NotAfterAntisymmetric | app.py:48 | Two names each at or before the other are equal, so the name order is antisymmetric, as Python's string order is. |
| ExamNames.InsertNameAscending | app.py:48 | Inserting a name keeps an ascending list ascending. |
| ExamNames.SortNames | app.py:48 | `sorted` on a slot's names returns as many names as it is given, in ascending order. SortNamesAscending adds that it is a permutation. |
| ExamNames.SortNamesAscending | app.py:48 | `sorted` on a slot's names gives an ascending permutation of them. |
| Timetable.SlotGroups | app.py:40-42 | No slot list is empty: a slot gets an entry only when an exam is appended to it. SlotGroupsInverts, SlotGroupsDistinct and SlotGroupsPooled state the rest. |
| Timetable.GroupBySlot | app.py:40-42 | The inversion loop gives exactly one key per slot used. An exam is in slot s's list iff it was coloured and its slot is s. |
| Timetable.SlotGroupsInverts | app.py:40-42 | The slot → exams lists invert the colouring: the keys are the used slots, and membership matches the slot map both ways. |
| Timetable.SlotGroupsDistinct | app.py:40-42 | Over a duplicate-free order, no slot's list repeats an exam. |
| Timetable.SlotGroupsPooled | app.py:40-42 | All lists together hold each coloured exam exactly as often as the order does, so each exam is in exactly one list, once. |
| Timetable.RowsFor | app.py:50-51 | The rows appended for one slot: their exam column is the slot's sorted names, and every label is slot + 1. |
| Timetable.AppendSlotRows | app.py:50-51 | The row loop appends one row per exam of the slot, labelled slot + 1, in the given order. |
| Timetable.Flatten | app.py:46-51 | The flattening loop produces exactly `TimetableData`: the least remaining slot first, its names sorted. |
| Timetable.TimetableData | app.py:46-51 | Every row's label is at least 1. The lemmas below state the contents and order of the rows. |
| Timetable.TimetableExams | app.py:46-51 | The exam column holds exactly the exams of all slot lists, with multiplicity. |
| Timetable.TimetableRowsSound | app.py:46-51 | Every row names an exam of the slot list its label minus one designates. |
| Timetable.TimetableRowsComplete | app.py:46-51 | Every exam of every slot list has its row, labelled slot + 1. |
| Timetable.TimetableOrdered | app.py:46-51 | Row labels never decrease, and within one label the names ascend. |
| Timetable.TimetableOfAssignment | app.py:40-51 | From a slot map, the timetable has each exam of the order exactly once, labelled with its slot + 1 (at least 1). The rows are ordered, and every exam of the order has its row. |
| Scheduler.Schedule | app.py:21-51 | The pipeline returns the conflict graph, slot map and timetable specified by `ConflictsOf`, `SlotsFor` and `TimetableFor`. The graph is valid and the colouring proper. |
| Scheduler.ConflictsOfSpec | app.py:21-36 | Built from the records, the graph has the exams in first-seen order as vertices. Its edges are exactly the pairs of distinct exams some student sits both of. |
| Scheduler.SlotsForSpec | app.py:21-39 | Every exam gets a slot. Conflicting exams never share one. No slot exceeds the exam's degree. At most max-degree + 1 slots are used. |
| Scheduler.TimetableForSpec | app.py:21-51 | The timetable lists every exam exactly once, with its slot + 1. Slots ascend down the table and names ascend within a slot. |
| Scheduler.DuplicateRecordNoEffect | app.py:23-51 | A repeated record, anywhere after its first occurrence, changes neither the conflict graph, nor the slots, nor the timetable. |
| Scheduler.DedupSameSchedule | app.py:23-51 | Records with repeats give the same conflict graph, slots and timetable as the same records with every repeat dropped, which is repeat-free. |
| Scheduler.EmptySchedule | app.py:21-51 | No records give no exams, an empty slot map and an empty timetable. |

## Left out

- The Streamlit interface (app.py:8-11, 45, 49, 58, 61, 79) is display and I/O only. The `st.markdown` line per slot prints the same sorted names that the rows hold.
- Reading the CSV with pandas and the column-presence check with `st.error`/`st.stop` (app.py:14-18) are outside the model. `Schedule` takes records that are already parsed.
- `student_exams` (app.py:22, 26) is built but never read.
- Building the DataFrame and writing the CSV download (app.py:53-58) are output wrappers around the rows, which are modelled.
- The conflict-graph plot (app.py:62-78) is visualisation only. This includes taking the first 20 nodes as a subgraph.
- The networkx library is not part of this model. Its largest-first strategy is written out directly, as a stable sort by descending degree followed by the least free colour. The tie-break is the one that networkx's `sorted(G, key=G.degree, reverse=True)` gives: Python's sort is stable and walks the nodes in insertion order, so exams of equal degree keep their first-seen order.
- Exam identifiers are modelled as strings, and student identifiers compare by string equality, which stands for Python's equality on them. The source only finishes when every exam value is a `str`. A slot holding a str exam and a non-str exam (a number, or NaN for a missing exam) raises a TypeError in `sorted` (app.py:48). A slot of non-str exams raises one in `', '.join` (app.py:49). In both cases the rows of that slot and of later slots (app.py:50-51) are never appended. That failure is outside the model.
- app.py does not check records for missing values before grouping them, and the model has no error path for them. A missing `student_id` becomes NaN. The `&` test (app.py:35) matches set elements by identity before `==`, so what a blank does depends on the id column:
  - In a text id column, pandas fills every blank with the same NaN object. Every exam with a blank-student record then holds that object, and all such exams conflict pairwise. The model stands for this case by one student id shared by every blank record.
  - In a numeric id column, each blank is a NaN of its own that matches nothing, so such a record only contributes its exam as a vertex. The model stands for this case by a student id unique to each blank record.
- Python's `sorted` on the slot keys (app.py:47) is modelled by repeatedly taking the least remaining slot. `sorted` on names (app.py:48) is modelled by an insertion sort. Only their results matter here, not their algorithms.

=== FILE: conflict_graph.dfy ===
/**
 * The conflict graph (app.py:28-36): one vertex per exam, in the order the
 * grouping listed them, and an undirected edge between two exams whenever
 * their student sets intersect. The graph is kept the way networkx keeps it:
 * the node list in insertion order and, per node, the set of its neighbours.
 */
module ConflictGraph {
  import opened Seqs
  import opened Grouping

  datatype Graph = Graph(vertices: seq<Exam>, adj: map<Exam, set<Exam>>)

  /** A simple undirected graph: distinct vertices, no self-loops, symmetric adjacency. */
  ghost predicate Valid(g: Graph)
  {
    && Distinct(g.vertices)
    && g.adj.Keys == Elems(g.vertices)
    && (forall v :: v in g.adj ==> g.adj[v] <= g.adj.Keys && v !in g.adj[v])
    && (forall u, v :: u in g.adj && v in g.adj[u] ==> u in g.adj[v])
  }

  /** The neighbours of `v` (none when `v` is not a vertex). */
  function Neighbours(g: Graph, v: Exam): set<Exam>
  {
    if v in g.adj then g.adj[v] else {}
  }

  /** In a valid graph the neighbours of an exam are other vertices. */
  lemma NeighboursAreOtherVertices(g: Graph, v: Exam)
    requires Valid(g)
    ensures Neighbours(g, v) <= Elems(g.vertices) && v !in Neighbours(g, v)
  {
  }

  /** The number of exams `v` conflicts with. */
  function Degree(g: Graph, v: Exam): (d: nat)
    ensures d == 0 <==> Neighbours(g, v) == {}
  {
    |Neighbours(g, v)|
  }

  /** Two exams of the grouping clash when some student sits both. */
  predicate Clash(examStudents: map<Exam, set<Student>>, a: Exam, b: Exam): (r: bool)
    ensures r <==> a in examStudents && b in examStudents && exists s :: s in examStudents[a] && s in examStudents[b]
  {
    a in examStudents && b in examStudents &&
    var shared := examStudents[a] * examStudents[b];
    assert shared != {} <==> exists s :: s in examStudents[a] && s in examStudents[b] by {
      if shared != {} {
        var s :| s in shared;
      }
      if exists s :: s in examStudents[a] && s in examStudents[b] {
        var s :| s in examStudents[a] && s in examStudents[b];
        assert s in shared;
      }
    }
    shared != {}
  }

  lemma ClashSymmetric(examStudents: map<Exam, set<Student>>, a: Exam, b: Exam)
    ensures Clash(examStudents, a, b) == Clash(examStudents, b, a)
  {
    if a in examStudents && b in examStudents {
      assert examStudents[a] * examStudents[b] == examStudents[b] * examStudents[a];
    }
  }

  /** `graph.add_edge(a, b)` on an undirected graph. */
  function AddEdge(adj: map<Exam, set<Exam>>, a: Exam, b: Exam): (r: map<Exam, set<Exam>>)
    requires a in adj && b in adj
    ensures r.Keys == adj.Keys
  {
    adj[a := adj[a] + {b}][b := adj[b] + {a}]
  }

  /** Adding an edge makes `a` and `b` neighbours of each other and changes no other adjacency. */
  lemma AddEdgeAdjacency(adj: map<Exam, set<Exam>>, a: Exam, b: Exam, x: Exam, y: Exam)
    requires a in adj && b in adj && x in adj
    ensures y in AddEdge(adj, a, b)[x] <==> y in adj[x] || (x == a && y == b) || (x == b && y == a)
  {
  }

  /** Looking at the pair of positions (i, j): the edge between their exams is added when they clash. */
  function PairEdge(examStudents: map<Exam, set<Student>>, exams: seq<Exam>, adj: map<Exam, set<Exam>>, i: nat, j: nat): (r: map<Exam, set<Exam>>)
    requires adj.Keys == Elems(exams)
    requires i < |exams| && j < |exams|
    ensures r.Keys == adj.Keys
    ensures Clash(examStudents, exams[i], exams[j]) ==> exams[j] in r[exams[i]] && exams[i] in r[exams[j]]
  {
    if Clash(examStudents, exams[i], exams[j]) then AddEdge(adj, exams[i], exams[j]) else adj
  }

  /** Row i of the scan, from `adj`, after the columns i + 1 up to j - 1. */
  ghost function ScanRow(examStudents: map<Exam, set<Student>>, exams: seq<Exam>, adj: map<Exam, set<Exam>>, i: nat, j: nat): (r: map<Exam, set<Exam>>)
    requires adj.Keys == Elems(exams)
    requires i < j <= |exams|
    ensures r.Keys == adj.Keys
    decreases j
  {
    if j == i + 1 then adj
    else PairEdge(examStudents, exams, ScanRow(examStudents, exams, adj, i, j - 1), i, j - 1)
  }

  /** The adjacency after the rows 0 up to i - 1 of the scan, starting from isolated vertices. */
  ghost function ScanRows(examStudents: map<Exam, set<Student>>, exams: seq<Exam>, i: nat): (r: map<Exam, set<Exam>>)
    requires i <= |exams|
    ensures r.Keys == Elems(exams)
  {
    if i == 0 then map e | e in exams :: {}
    else ScanRow(examStudents, exams, ScanRows(examStudents, exams, i - 1), i - 1, |exams|)
  }

  /** {a, b} is one of the pairs (i, k) with i < k < j. */
  ghost predicate InRow(exams: seq<Exam>, i: nat, j: nat, a: Exam, b: Exam)
    requires i < j <= |exams|
  {
    (a == exams[i] && b in exams[i + 1..j]) || (b == exams[i] && a in exams[i + 1..j])
  }

  /** Scanning row i up to column j adds to `adj` exactly the clashing pairs of that stretch of the row. */
  lemma {:induction false} ScanRowEdges(examStudents: map<Exam, set<Student>>, exams: seq<Exam>, adj: map<Exam, set<Exam>>, i: nat, j: nat, a: Exam, b: Exam)
    requires adj.Keys == Elems(exams)
    requires i < j <= |exams|
    requires a in adj
    ensures b in ScanRow(examStudents, exams, adj, i, j)[a]
        <==> b in adj[a] || (InRow(exams, i, j, a, b) && Clash(examStudents, a, b))
    decreases j
  {
    if j > i + 1 {
      var prev := ScanRow(examStudents, exams, adj, i, j - 1);
      var e, c := exams[i], exams[j - 1];
      ScanRowEdges(examStudents, exams, adj, i, j - 1, a, b);
      assert exams[i + 1..j] == exams[i + 1..j - 1] + [c];
      assert InRow(exams, i, j, a, b) <==> InRow(exams, i, j - 1, a, b) || (a == e && b == c) || (b == e && a == c);
      ClashSymmetric(examStudents, a, b);
      if Clash(examStudents, e, c) {
        assert ScanRow(examStudents, exams, adj, i, j) == AddEdge(prev, e, c);
      } else {
        assert ScanRow(examStudents, exams, adj, i, j) == prev;
      }
    } else {
      assert exams[i + 1..j] == [];
    }
  }

  /** After i whole rows, two exams are adjacent exactly when they differ, clash and one of them is among the first i. */
  lemma {:induction false} ScanRowsEdges(examStudents: map<Exam, set<Student>>, exams: seq<Exam>, i: nat, a: Exam, b: Exam)
    requires Distinct(exams)
    requires i <= |exams|
    requires a in exams
    ensures b in ScanRows(examStudents, exams, i)[a]
        <==> b in exams && a != b && Clash(examStudents, a, b) && (a in exams[..i] || b in exams[..i])
  {
    if i > 0 {
      ScanRowsEdges(examStudents, exams, i - 1, a, b);
      DistinctSplit(exams, i - 1);
      ScanRowsStep(examStudents, exams, i, a, b);
    }
  }

  /** Row i - 1 adds the pairs of its exam with every later one; nothing earlier is touched. */
  lemma ScanRowsStep(examStudents: map<Exam, set<Student>>, exams: seq<Exam>, i: nat, a: Exam, b: Exam)
    requires 0 < i <= |exams|
    requires a in exams
    requires exams[i - 1] !in exams[..i - 1] && exams[i - 1] !in exams[i..]
    requires b in ScanRows(examStudents, exams, i - 1)[a]
        <==> b in exams && a != b && Clash(examStudents, a, b) && (a in exams[..i - 1] || b in exams[..i - 1])
    ensures b in ScanRows(examStudents, exams, i)[a]
        <==> b in exams && a != b && Clash(examStudents, a, b) && (a in exams[..i] || b in exams[..i])
  {
    var n := |exams|;
    var e, before, after := exams[i - 1], exams[..i - 1], exams[i..];
    var adj := ScanRows(examStudents, exams, i - 1);
    var clash := Clash(examStudents, a, b);
    SplitAt(exams, i, a);
    SplitAt(exams, i, b);
    assert exams[i - 1 + 1..n] == after;
    ScanRowEdges(examStudents, exams, adj, i - 1, n, a, b);
    assert b in ScanRows(examStudents, exams, i)[a] <==> b in adj[a] || (InRow(exams, i - 1, n, a, b) && clash);
    if a == e {
      assert a !in before && a !in after;
      assert InRow(exams, i - 1, n, a, b) <==> b in after;
    } else if b == e {
      assert b !in before && b !in after;
      assert InRow(exams, i - 1, n, a, b) <==> a in after;
    } else {
      assert !InRow(exams, i - 1, n, a, b);
    }
  }

  /** Where an exam sits relative to position i - 1. */
  lemma SplitAt(exams: seq<Exam>, i: nat, x: Exam)
    requires 0 < i <= |exams|
    ensures x in exams[..i] <==> x in exams[..i - 1] || x == exams[i - 1]
    ensures x in exams <==> x in exams[..i - 1] || x == exams[i - 1] || x in exams[i..]
  {
    assert exams[..i] == exams[..i - 1] + [exams[i - 1]];
    assert exams == exams[..i] + exams[i..];
  }

  /** After the whole scan, two exams are adjacent exactly when they are distinct exams that clash. */
  lemma ScanEdge(examStudents: map<Exam, set<Student>>, exams: seq<Exam>, a: Exam, b: Exam)
    requires Distinct(exams)
    requires a in exams
    ensures b in ScanRows(examStudents, exams, |exams|)[a] <==> b in exams && a != b && Clash(examStudents, a, b)
  {
    ScanRowsEdges(examStudents, exams, |exams|, a, b);
    assert exams[..|exams|] == exams;
  }

  /** Once every row is scanned, the adjacency is the conflict relation between distinct exams. */
  lemma ScanGraph(examStudents: map<Exam, set<Student>>, exams: seq<Exam>)
    requires Distinct(exams) && examStudents.Keys == Elems(exams)
    ensures Valid(Graph(exams, ScanRows(examStudents, exams, |exams|)))
    ensures forall a, b :: a in ScanRows(examStudents, exams, |exams|) && b in ScanRows(examStudents, exams, |exams|) ==>
              (b in ScanRows(examStudents, exams, |exams|)[a] <==> a != b && examStudents[a] * examStudents[b] != {})
  {
    var adj := ScanRows(examStudents, exams, |exams|);
    forall a | a in adj ensures adj[a] <= adj.Keys && a !in adj[a] {
      forall b | b in adj[a] ensures b in adj.Keys {
        ScanEdge(examStudents, exams, a, b);
      }
      ScanEdge(examStudents, exams, a, a);
    }
    forall a, b | a in adj && b in adj[a] ensures a in adj[b] {
      ScanEdge(examStudents, exams, a, b);
      ScanEdge(examStudents, exams, b, a);
      ClashSymmetric(examStudents, a, b);
    }
    forall a, b | a in adj && b in adj
      ensures b in adj[a] <==> a != b && examStudents[a] * examStudents[b] != {}
    {
      ScanEdge(examStudents, exams, a, b);
    }
  }

  /**
   * `graph.add_nodes_from(exams)` and the pairwise scan of app.py:29-36: for
   * every pair of positions i < j, an edge is added when the two exams share a
   * student. The result has the exams as vertices, in the same order, and an
   * edge exactly between distinct exams whose student sets intersect.
   */
  method BuildGraph(examStudents: map<Exam, set<Student>>, exams: seq<Exam>) returns (g: Graph)
    requires Distinct(exams) && examStudents.Keys == Elems(exams)
    ensures g == Graph(exams, ScanRows(examStudents, exams, |exams|))
    ensures Valid(g)
    ensures forall a, b :: a in g.adj && b in g.adj ==>
              (b in g.adj[a] <==> a != b && examStudents[a] * examStudents[b] != {})
  {
    var n := |exams|;
    var adj: map<Exam, set<Exam>> := map e | e in exams :: {};
    for i := 0 to n
      invariant adj == ScanRows(examStudents, exams, i)
    {
      adj := ScanRowOf(examStudents, exams, adj, i);
    }
    g := Graph(exams, adj);
    ScanGraph(examStudents, exams);
  }

  /** The inner loop of app.py:33-36: pair exam i with every later exam, adding an edge for each clash. */
  method ScanRowOf(examStudents: map<Exam, set<Student>>, exams: seq<Exam>, adj: map<Exam, set<Exam>>, i: nat)
    returns (adj': map<Exam, set<Exam>>)
    requires examStudents.Keys == Elems(exams) && adj.Keys == Elems(exams)
    requires i < |exams|
    ensures adj' == ScanRow(examStudents, exams, adj, i, |exams|)
  {
    adj' := adj;
    for j := i + 1 to |exams|
      invariant adj' == ScanRow(examStudents, exams, adj, i, j)
    {
      var exam1, exam2 := exams[i], exams[j];
      ghost var before := adj';
      if examStudents[exam1] * examStudents[exam2] != {} {
        adj' := AddEdge(adj', exam1, exam2);
      }
      assert adj' == PairEdge(examStudents, exams, before, i, j);
    }
  }
}

=== FILE: exam_names.dfy ===
/**
 * Python's ordering of exam names, as used by `sorted(slot_to_exams[slot])`
 * (app.py:48): strings compare code point by code point, and a proper prefix
 * comes first.
 */
module ExamNames {
  import opened Grouping

  /** `a <= b` on Python strings. */
  predicate NotAfter(a: Exam, b: Exam): (r: bool)
    ensures a <= b ==> r
  {
    a == [] || (b != [] && (a[0] < b[0] || (a[0] == b[0] && NotAfter(a[1..], b[1..]))))
  }

  lemma {:induction false} NotAfterTotal(a: Exam, b: Exam)
    ensures NotAfter(a, b) || NotAfter(b, a)
  {
    if a != [] && b != [] && a[0] == b[0] {
      NotAfterTotal(a[1..], b[1..]);
    }
  }

  lemma {:induction false} NotAfterTransitive(a: Exam, b: Exam, c: Exam)
    requires NotAfter(a, b) && NotAfter(b, c)
    ensures NotAfter(a, c)
  {
    if a != [] && b != [] && c != [] && a[0] == b[0] == c[0] {
      NotAfterTransitive(a[1..], b[1..], c[1..]);
    }
  }

  lemma {:induction false} NotAfterAntisymmetric(a: Exam, b: Exam)
    requires NotAfter(a, b) && NotAfter(b, a)
    ensures a == b
  {
    if a != [] && b != [] {
      NotAfterAntisymmetric(a[1..], b[1..]);
      assert a == [a[0]] + a[1..] && b == [b[0]] + b[1..];
    }
  }

  /** Every exam of `s` is at or before every later one. */
  ghost predicate Ascending(s: seq<Exam>)
  {
    forall i, j :: 0 <= i < j < |s| ==> NotAfter(s[i], s[j])
  }

  /** Places `e` in front of the first exam of `s` it does not come after. */
  function InsertName(e: Exam, s: seq<Exam>): (r: seq<Exam>)
    ensures |r| == |s| + 1
  {
    if s == [] then [e]
    else if NotAfter(e, s[0]) then [e] + s
    else [s[0]] + InsertName(e, s[1..])
  }

  /** `sorted(exams)`: insertion sort by name. */
  function SortNames(s: seq<Exam>): (r: seq<Exam>)
    ensures |r| == |s|
    ensures Ascending(r)
  {
    if s == [] then []
    else
      var sorted := SortNames(s[..|s| - 1]);
      InsertNameAscending(s[|s| - 1], sorted);
      InsertName(s[|s| - 1], sorted)
  }

  /** Insertion adds `e` and loses nothing. */
  lemma {:induction false} InsertNamePermutes(e: Exam, s: seq<Exam>)
    ensures multiset(InsertName(e, s)) == multiset(s) + multiset{e}
  {
    if s != [] && !NotAfter(e, s[0]) {
      InsertNamePermutes(e, s[1..]);
      assert s == [s[0]] + s[1..];
    }
  }

  /** Putting in front a name at or before every name of an ascending `s` keeps it ascending. */
  lemma ConsAscending(h: Exam, s: seq<Exam>)
    requires Ascending(s)
    requires forall k :: 0 <= k < |s| ==> NotAfter(h, s[k])
    ensures Ascending([h] + s)
  {
    var r := [h] + s;
    forall i, j | 0 <= i < j < |r| ensures NotAfter(r[i], r[j]) {
      assert r[j] == s[j - 1];
      if i > 0 {
        assert r[i] == s[i - 1];
      }
    }
  }

  lemma AscendingTail(s: seq<Exam>)
    requires s != [] && Ascending(s)
    ensures Ascending(s[1..])
  {
    var rest := s[1..];
    forall i, j | 0 <= i < j < |rest| ensures NotAfter(rest[i], rest[j]) {
      assert rest[i] == s[i + 1] && rest[j] == s[j + 1];
    }
  }

  lemma {:induction false} InsertNameAscending(e: Exam, s: seq<Exam>)
    requires Ascending(s)
    ensures Ascending(InsertName(e, s))
  {
    if s == [] {
    } else if NotAfter(e, s[0]) {
      assert InsertName(e, s) == [e] + s;
      forall k | 0 <= k < |s| ensures NotAfter(e, s[k]) {
        if k > 0 {
          NotAfterTransitive(e, s[0], s[k]);
        }
      }
      ConsAscending(e, s);
    } else {
      var h, rest := s[0], s[1..];
      var t := InsertName(e, rest);
      assert InsertName(e, s) == [h] + t;
      assert Ascending(t) by {
        AscendingTail(s);
        InsertNameAscending(e, rest);
      }
      InsertNamePermutes(e, rest);
      NotAfterTotal(e, h);
      forall k | 0 <= k < |t| ensures NotAfter(h, t[k]) {
        assert t[k] in multiset(t);
        if t[k] != e {
          assert t[k] in multiset(rest);
          var m :| 0 <= m < |rest| && rest[m] == t[k];
          assert s[m + 1] == t[k];
        }
      }
      ConsAscending(h, t);
    }
  }

  /** The names of a slot come out in ascending order, each as often as it went in. */
  lemma {:induction false} SortNamesAscending(s: seq<Exam>)
    ensures Ascending(SortNames(s))
    ensures multiset(SortNames(s)) == multiset(s)
  {
    if s != [] {
      var p, e := s[..|s| - 1], s[|s| - 1];
      var sorted := SortNames(p);
      assert SortNames(s) == InsertName(e, sorted);
      SortNamesAscending(p);
      InsertNameAscending(e, sorted);
      calc {
        multiset(InsertName(e, sorted));
      == { InsertNamePermutes(e, sorted); }
        multiset(sorted) + multiset{e};
        multiset(p) + multiset{e};
      == { assert s == p + [e]; }
        multiset(s);
      }
    }
  }
}

=== FILE: greedy.dfy ===
/**
 * Greedy slot assignment (app.py:39, `greedy_color(graph, strategy='largest_first')`).
 * The vertices are visited once, in the largest-first order; each gets the
 * smallest non-negative slot that none of its already-coloured neighbours
 * holds. The result maps every exam to its 0-based slot.
 */
module Greedy {
  import opened Seqs
  import opened Grouping
  import opened ConflictGraph
  import opened LargestFirst

  /** The slots held by those members of `exams` that already have one. */
  function SlotsOf(exams: set<Exam>, slots: map<Exam, nat>): (used: set<nat>)
    ensures slots.Keys <= exams ==> used == slots.Values
  {
    set u | u in exams && u in slots :: slots[u]
  }

  /** The least slot not in `used`. */
  ghost function FirstFree(used: set<nat>): (c: nat)
    ensures c !in used
    ensures forall k: nat :: k < c ==> k in used
  {
    FirstFreeFrom(used, 0)
  }

  ghost function FirstFreeFrom(used: set<nat>, k: nat): (c: nat)
    requires forall j: nat :: j < k ==> j in used
    ensures k <= c && c !in used
    ensures forall j: nat :: j < c ==> j in used
    decreases |used| - k
  {
    if k in used then
      HoldsBelowBound(used, k + 1);
      FirstFreeFrom(used, k + 1)
    else k
  }

  /** The slot map after colouring the exams of `order` one by one. */
  ghost function Coloring(g: Graph, order: seq<Exam>): (slots: map<Exam, nat>)
    ensures slots.Keys == Elems(order)
  {
    if order == [] then map[]
    else
      var earlier := Coloring(g, order[..|order| - 1]);
      var v := order[|order| - 1];
      assert Elems(order) == Elems(order[..|order| - 1]) + {v} by {
        assert order == order[..|order| - 1] + [v];
      }
      earlier[v := FirstFree(SlotsOf(Neighbours(g, v), earlier))]
  }

  /** No two adjacent exams share a slot. */
  ghost predicate Proper(g: Graph, slots: map<Exam, nat>)
  {
    forall u, v :: u in slots && v in slots && v in Neighbours(g, u) ==> slots[u] != slots[v]
  }

  /** The slots of the neighbours of `order[i]` that come before it in `order`. */
  ghost function EarlierSlots(g: Graph, order: seq<Exam>, i: nat, slots: map<Exam, nat>): set<nat>
    requires i < |order|
  {
    SlotsOf(Neighbours(g, order[i]) * Elems(order[..i]), slots)
  }

  /**
   * The colouring loop of `greedy_color`: for each vertex in largest-first
   * order, collect the slots of its coloured neighbours and count up from 0 to
   * the first one missing.
   */
  method GreedyColor(g: Graph) returns (order: seq<Exam>, slots: map<Exam, nat>)
    requires Valid(g)
    ensures order == LargestFirstOrder(g)
    ensures slots == Coloring(g, order)
    ensures slots.Keys == Elems(g.vertices)
    ensures Proper(g, slots)
    ensures forall v :: v in slots ==> slots[v] <= Degree(g, v)
  {
    order := LargestFirstOrder(g);
    slots := map[];
    for i := 0 to |order|
      invariant slots == Coloring(g, order[..i])
    {
      var v := order[i];
      var used := SlotsOf(Neighbours(g, v), slots);
      var c := LeastUnused(used);
      ColoringStep(g, order, i);
      slots := slots[v := c];
    }
    assert order[..|order|] == order;
    LargestFirstOrderSpec(g);
    ColoringProper(g, order);
    ColoringWithinDegree(g, order);
  }

  /** `for color in itertools.count(): if color not in neighbour_colors: break` */
  method LeastUnused(used: set<nat>) returns (c: nat)
    ensures c !in used
    ensures forall k: nat :: k < c ==> k in used
    ensures c == FirstFree(used)
  {
    c := 0;
    while c in used
      invariant forall k: nat :: k < c ==> k in used
      decreases |used| - c
    {
      HoldsBelowBound(used, c + 1);
      c := c + 1;
    }
    FirstFreeUnique(used, c);
  }

  /** The least free slot is the only slot that is free while all below it are taken. */
  lemma FirstFreeUnique(used: set<nat>, c: nat)
    requires c !in used
    requires forall k: nat :: k < c ==> k in used
    ensures c == FirstFree(used)
  {
    var f := FirstFree(used);
    assert !(c < f) && !(f < c);
  }

  /** Colouring one more exam of the order. */
  lemma ColoringStep(g: Graph, order: seq<Exam>, i: nat)
    requires i < |order|
    ensures Coloring(g, order[..i + 1])
         == Coloring(g, order[..i])[order[i] := FirstFree(SlotsOf(Neighbours(g, order[i]), Coloring(g, order[..i])))]
  {
    assert order[..i + 1][..i] == order[..i];
  }

  /** Two members of `order` that are adjacent never receive the same slot. */
  lemma {:induction false} ColoringProper(g: Graph, order: seq<Exam>)
    requires Valid(g) && Distinct(order)
    ensures Proper(g, Coloring(g, order))
  {
    if order != [] {
      var p, v := order[..|order| - 1], order[|order| - 1];
      var earlier := Coloring(g, p);
      var slots := Coloring(g, order);
      ColoringProper(g, p);
      assert v !in earlier;
      forall a, b | a in slots && b in slots && b in Neighbours(g, a)
        ensures slots[a] != slots[b]
      {
        if a == v {
          assert b in earlier;
          assert earlier[b] in SlotsOf(Neighbours(g, v), earlier);
        } else if b == v {
          assert a in Neighbours(g, b);
          assert earlier[a] in SlotsOf(Neighbours(g, v), earlier);
        }
      }
    }
  }

  /** Collecting the slots of a set of exams yields no more slots than exams. */
  lemma {:induction false} SlotsOfSize(exams: set<Exam>, slots: map<Exam, nat>)
    ensures |SlotsOf(exams, slots)| <= |exams|
  {
    if exams != {} {
      var x :| x in exams;
      SlotsOfSize(exams - {x}, slots);
      var extra: set<nat> := if x in slots then {slots[x]} else {};
      assert SlotsOf(exams, slots) <= SlotsOf(exams - {x}, slots) + extra;
      SubsetSize(SlotsOf(exams, slots), SlotsOf(exams - {x}, slots) + extra);
    }
  }

  /** Every exam's slot is at most its degree. */
  lemma {:induction false} ColoringWithinDegree(g: Graph, order: seq<Exam>)
    ensures forall v :: v in Coloring(g, order) ==> Coloring(g, order)[v] <= Degree(g, v)
  {
    if order != [] {
      var p, v := order[..|order| - 1], order[|order| - 1];
      var earlier := Coloring(g, p);
      ColoringWithinDegree(g, p);
      var used := SlotsOf(Neighbours(g, v), earlier);
      HoldsBelowBound(used, FirstFree(used));
      SlotsOfSize(Neighbours(g, v), earlier);
    }
  }

  /** Colouring more exams never changes the slot of an exam coloured earlier. */
  lemma {:induction false} ColoringPrefix(g: Graph, order: seq<Exam>, k: nat)
    requires Distinct(order) && k <= |order|
    ensures forall u :: u in order[..k] ==> Coloring(g, order)[u] == Coloring(g, order[..k])[u]
    decreases |order|
  {
    if k == |order| {
      assert order[..k] == order;
    } else {
      var p, v := order[..|order| - 1], order[|order| - 1];
      ColoringPrefix(g, p, k);
      assert p[..k] == order[..k];
      forall u | u in order[..k] ensures u != v {
        var m :| 0 <= m < k && order[m] == u;
      }
    }
  }

  /**
   * The greedy rule, stated against the finished map: each exam's slot is not
   * held by any neighbour coloured before it, and every smaller slot is.
   */
  lemma ColoringGreedy(g: Graph, order: seq<Exam>, i: nat)
    requires Distinct(order) && i < |order|
    ensures Coloring(g, order)[order[i]] !in EarlierSlots(g, order, i, Coloring(g, order))
    ensures forall k: nat :: k < Coloring(g, order)[order[i]] ==> k in EarlierSlots(g, order, i, Coloring(g, order))
  {
    var slots := Coloring(g, order);
    var v := order[i];
    var before := Coloring(g, order[..i]);
    ColoringPrefix(g, order, i + 1);
    ColoringPrefix(g, order, i);
    assert v in order[..i + 1];
    ColoringStep(g, order, i);
    assert slots[v] == FirstFree(SlotsOf(Neighbours(g, v), before));
    SlotsOfAgree(Neighbours(g, v), before, slots, Elems(order[..i]));
  }

  /** Two slot maps that agree on the keys of the first give the same slots for any set of exams. */
  lemma SlotsOfAgree(exams: set<Exam>, before: map<Exam, nat>, slots: map<Exam, nat>, done: set<Exam>)
    requires before.Keys == done && done <= slots.Keys
    requires forall u :: u in done ==> before[u] == slots[u]
    ensures SlotsOf(exams, before) == SlotsOf(exams * done, slots)
  {
  }

  /** The slots in use form an initial segment 0, 1, ..., k - 1: no slot is skipped. */
  lemma ColoringContiguous(g: Graph, order: seq<Exam>)
    requires Distinct(order)
    ensures forall v, k: nat :: v in Coloring(g, order) && k < Coloring(g, order)[v] ==> k in Coloring(g, order).Values
  {
    var slots := Coloring(g, order);
    forall v, k: nat | v in slots && k < slots[v]
      ensures k in slots.Values
    {
      var i :| 0 <= i < |order| && order[i] == v;
      ColoringGreedy(g, order, i);
      assert k in SlotsOf(Neighbours(g, v) * Elems(order[..i]), slots);
      var u :| u in Neighbours(g, v) * Elems(order[..i]) && u in slots && slots[u] == k;
    }
  }

  /** The largest degree among the exams of `s` (0 when there are none). */
  ghost function MaxDegree(g: Graph, s: seq<Exam>): (d: nat)
    ensures forall v :: v in s ==> Degree(g, v) <= d
    ensures s != [] ==> exists v :: v in s && Degree(g, v) == d
  {
    if s == [] then 0
    else
      var rest := MaxDegree(g, s[1..]);
      assert forall v :: v in s ==> v == s[0] || v in s[1..];
      if Degree(g, s[0]) >= rest then Degree(g, s[0])
      else
        assert s[1..] != [];
        var w :| w in s[1..] && Degree(g, w) == rest;
        assert w in s;
        rest
  }

  /** At most max-degree + 1 distinct slots are used. */
  lemma SlotCountBound(g: Graph, order: seq<Exam>)
    requires forall v :: v in order ==> v in g.vertices
    ensures |Coloring(g, order).Values| <= MaxDegree(g, g.vertices) + 1
  {
    var slots := Coloring(g, order);
    var d := MaxDegree(g, g.vertices);
    ColoringWithinDegree(g, order);
    assert slots.Values <= Below(d + 1);
    SubsetSize(slots.Values, Below(d + 1));
  }

  /** Without any conflict, every exam lands in slot 0. */
  lemma NoConflictsOneSlot(g: Graph, order: seq<Exam>)
    requires forall v :: v in order ==> Neighbours(g, v) == {}
    ensures forall v :: v in Coloring(g, order) ==> Coloring(g, order)[v] == 0
  {
    ColoringWithinDegree(g, order);
  }

  /** When every two exams of `order` conflict, the i-th exam gets slot i, so n exams use n slots. */
  lemma {:induction false} AllConflictingAllSlots(g: Graph, order: seq<Exam>)
    requires Distinct(order)
    requires forall u, v :: u in order && v in order && u != v ==> v in Neighbours(g, u)
    ensures forall i :: 0 <= i < |order| ==> Coloring(g, order)[order[i]] == i
    ensures Coloring(g, order).Values == Below(|order|)
  {
    if order != [] {
      var p, v := order[..|order| - 1], order[|order| - 1];
      assert order == p + [v];
      DistinctPrefix(order, |order| - 1);
      DistinctSplit(order, |order| - 1);
      assert forall x, y :: x in p && y in p && x != y ==> y in Neighbours(g, x) by {
        assert forall x :: x in p ==> x in order;
      }
      assert forall u :: u in p ==> u in Neighbours(g, v) by {
        assert forall x :: x in p ==> x in order;
      }
      AllConflictingAllSlots(g, p);
      AllConflictingStep(g, p, v);
    }
  }

  lemma AllConflictingStep(g: Graph, p: seq<Exam>, v: Exam)
    requires v !in p
    requires forall u :: u in p ==> u in Neighbours(g, v)
    requires forall i :: 0 <= i < |p| ==> Coloring(g, p)[p[i]] == i
    requires Coloring(g, p).Values == Below(|p|)
    ensures forall i :: 0 <= i < |p| + 1 ==> Coloring(g, p + [v])[(p + [v])[i]] == i
    ensures Coloring(g, p + [v]).Values == Below(|p| + 1)
  {
    var m := Coloring(g, p);
    assert Coloring(g, p + [v]) == m[v := |p|] && v !in m by {
      AllConflictingNext(g, p, v);
    }
    IndexAfterNewKey(m, p, v);
    calc {
      m[v := |p|].Values;
    == { ValuesAfterNewKey(m, v, |p|); }
      Below(|p|) + {|p|};
    ==
      Below(|p| + 1);
    }
  }

  /** An exam in conflict with all of `p`, whose slots are exactly 0 up to |p| - 1, gets slot |p|. */
  lemma AllConflictingNext(g: Graph, p: seq<Exam>, v: Exam)
    requires v !in p
    requires forall u :: u in p ==> u in Neighbours(g, v)
    requires Coloring(g, p).Values == Below(|p|)
    ensures v !in Coloring(g, p)
    ensures Coloring(g, p + [v]) == Coloring(g, p)[v := |p|]
  {
    var earlier := Coloring(g, p);
    assert (p + [v])[..|p + [v]| - 1] == p;
    assert earlier.Keys <= Neighbours(g, v);
    SlotsOfAll(Neighbours(g, v), earlier);
    FirstFreeUnique(Below(|p|), |p|);
  }

  /** Numbering a new last exam |p| keeps every exam numbered by its position. */
  lemma IndexAfterNewKey(m: map<Exam, nat>, p: seq<Exam>, v: Exam)
    requires v !in p
    requires forall i :: 0 <= i < |p| ==> p[i] in m && m[p[i]] == i
    ensures forall i :: 0 <= i < |p| + 1 ==> m[v := |p|][(p + [v])[i]] == i
  {
    forall i | 0 <= i < |p| + 1 ensures m[v := |p|][(p + [v])[i]] == i {
      if i < |p| {
        assert (p + [v])[i] == p[i] && p[i] != v;
      }
    }
  }

  /** When every coloured exam is in `exams`, their slots are all the slots of the map. */
  lemma SlotsOfAll(exams: set<Exam>, slots: map<Exam, nat>)
    requires slots.Keys <= exams
    ensures SlotsOf(exams, slots) == slots.Values
  {
  }

  /** Giving a new key a value adds exactly that value. */
  lemma ValuesAfterNewKey(m: map<Exam, nat>, k: Exam, x: nat)
    requires k !in m
    ensures m[k := x].Values == m.Values + {x}
  {
    var m' := m[k := x];
    forall y | y in m.Values ensures y in m'.Values {
      var u :| u in m && m[u] == y;
      assert m'[u] == y;
    }
    assert m'[k] == x;
  }
}

=== FILE: grouping.dfy ===
/**
 * Grouping of participation records by exam (app.py:21-28).
 *
 * The source accumulates a `defaultdict(set)` from exam to students and then
 * lists its keys. A Python dict keeps its keys in insertion order and a Dafny
 * map does not, so the ordered dict is modelled as a map together with the
 * sequence of its keys in the order they were first inserted.
 */
module Grouping {
  import opened Seqs

  type Student = string
  type Exam = string

  /** One row of the uploaded table: a student sitting an exam. */
  datatype Record = Record(student: Student, exam: Exam)

  /** The exams named anywhere in `records`. */
  ghost function ExamsIn(records: seq<Record>): set<Exam>
  {
    set r | r in records :: r.exam
  }

  /** The students registered for exam `e` in `records`. */
  ghost function StudentsOf(records: seq<Record>, e: Exam): set<Student>
  {
    set r | r in records && r.exam == e :: r.student
  }

  /** The exam-to-students grouping the loop is meant to build. */
  ghost function ExamStudents(records: seq<Record>): (m: map<Exam, set<Student>>)
    ensures m.Keys == ExamsIn(records)
  {
    map e | e in ExamsIn(records) :: StudentsOf(records, e)
  }

  /** The distinct exams of `records`, in the order in which each is first met. */
  ghost function FirstSeen(records: seq<Record>): (exams: seq<Exam>)
    ensures Distinct(exams)
    ensures Elems(exams) == ExamsIn(records)
  {
    if records == [] then []
    else
      var earlier := FirstSeen(records[..|records| - 1]);
      var e := records[|records| - 1].exam;
      assert ExamsIn(records) == ExamsIn(records[..|records| - 1]) + {e} by {
        assert records == records[..|records| - 1] + [records[|records| - 1]];
      }
      if e in earlier then earlier else earlier + [e]
  }

  lemma ExamsInSnoc(records: seq<Record>, r: Record)
    ensures ExamsIn(records + [r]) == ExamsIn(records) + {r.exam}
  {
  }

  /** Appending one record adds its student to its exam's set, creating the entry if needed. */
  lemma ExamStudentsSnoc(records: seq<Record>, r: Record)
    ensures ExamStudents(records + [r])
         == ExamStudents(records)[r.exam := (if r.exam in ExamStudents(records) then ExamStudents(records)[r.exam] else {}) + {r.student}]
  {
    var before, after := ExamStudents(records), ExamStudents(records + [r]);
    var expected := before[r.exam := (if r.exam in before then before[r.exam] else {}) + {r.student}];
    ExamsInSnoc(records, r);
    assert after.Keys == expected.Keys;
    forall e | e in after
      ensures after[e] == expected[e]
    {
      StudentsOfSnoc(records, r, e);
    }
  }

  lemma StudentsOfSnoc(records: seq<Record>, r: Record, e: Exam)
    ensures StudentsOf(records + [r], e) == StudentsOf(records, e) + (if e == r.exam then {r.student} else {})
  {
    assert forall x :: x in records + [r] <==> x in records || x == r;
  }

  /**
   * The loop of app.py:23-26 followed by `list(exam_students.keys())` (app.py:28):
   * every record's student is added to its exam's set, and an exam seen for the
   * first time is appended to the key order.
   */
  method GroupRecords(records: seq<Record>) returns (examStudents: map<Exam, set<Student>>, exams: seq<Exam>)
    ensures examStudents == ExamStudents(records)
    ensures exams == FirstSeen(records)
    ensures Distinct(exams) && Elems(exams) == examStudents.Keys
    ensures forall e :: e in examStudents <==> exists r :: r in records && r.exam == e
    ensures forall e, s :: e in examStudents ==> (s in examStudents[e] <==> Record(s, e) in records)
  {
    examStudents, exams := map[], [];
    for k := 0 to |records|
      invariant examStudents == ExamStudents(records[..k])
      invariant exams == FirstSeen(records[..k])
    {
      var r := records[k];
      assert records[..k + 1] == records[..k] + [r];
      ExamStudentsSnoc(records[..k], r);
      if r.exam !in examStudents {
        examStudents := examStudents[r.exam := {}];
        exams := exams + [r.exam];
      }
      examStudents := examStudents[r.exam := examStudents[r.exam] + {r.student}];
    }
    assert records[..|records|] == records;
    forall e, s | e in examStudents
      ensures s in examStudents[e] <==> Record(s, e) in records
    {
      GroupingExact(records, e, s);
    }
  }

  /** Each grouped exam's set holds exactly the students recorded for it. */
  lemma GroupingExact(records: seq<Record>, e: Exam, s: Student)
    requires e in ExamStudents(records)
    ensures s in ExamStudents(records)[e] <==> Record(s, e) in records
  {
    if s in ExamStudents(records)[e] {
      var r :| r in records && r.exam == e && r.student == s;
      assert r == Record(s, e);
    }
  }

  /** A record seen before changes neither the grouping nor the key order (sets absorb duplicates). */
  lemma {:induction false} DuplicateRecordIgnored(records: seq<Record>, r: Record)
    requires r in records
    ensures ExamStudents(records + [r]) == ExamStudents(records)
    ensures FirstSeen(records + [r]) == FirstSeen(records)
  {
    ExamStudentsSnoc(records, r);
    var m := ExamStudents(records);
    assert r.exam in m;
    assert r.student in StudentsOf(records, r.exam);
    assert m[r.exam] + {r.student} == m[r.exam];
    assert (records + [r])[..|records|] == records;
  }

  /** The grouping depends only on which records occur, not on their order or multiplicity. */
  lemma SameRecordsSameGrouping(a: seq<Record>, b: seq<Record>)
    requires Elems(a) == Elems(b)
    ensures ExamStudents(a) == ExamStudents(b)
  {
    assert forall r :: r in a <==> r in Elems(a);
    assert forall r :: r in b <==> r in Elems(b);
    assert ExamsIn(a) == ExamsIn(b);
    forall e | e in ExamsIn(a) ensures StudentsOf(a, e) == StudentsOf(b, e) { }
  }

  /** The key order after one more record depends only on the key order before it. */
  lemma FirstSeenSnoc(records: seq<Record>, r: Record)
    ensures FirstSeen(records + [r])
         == if r.exam in FirstSeen(records) then FirstSeen(records) else FirstSeen(records) + [r.exam]
  {
    assert (records + [r])[..|records|] == records;
  }

  /** A repeated record anywhere after its first occurrence leaves the key order unchanged. */
  lemma {:induction false} FirstSeenDuplicate(before: seq<Record>, r: Record, after: seq<Record>)
    requires r in before
    ensures FirstSeen(before + [r] + after) == FirstSeen(before + after)
  {
    if after == [] {
      assert before + [r] + after == before + [r];
      assert before + after == before;
      DuplicateRecordIgnored(before, r);
    } else {
      var rest, x := after[..|after| - 1], after[|after| - 1];
      FirstSeenDuplicate(before, r, rest);
      assert before + [r] + after == (before + [r] + rest) + [x];
      assert before + after == (before + rest) + [x];
      FirstSeenSnoc(before + [r] + rest, x);
      FirstSeenSnoc(before + rest, x);
    }
  }

  /** The records with every repeat dropped: each record at its first occurrence. */
  ghost function Dedup(records: seq<Record>): seq<Record>
  {
    if records == [] then []
    else
      var earlier := records[..|records| - 1];
      var r := records[|records| - 1];
      if r in earlier then Dedup(earlier) else Dedup(earlier) + [r]
  }

  /** Dropping repeats keeps every record once, and keeps the exam key order. */
  lemma {:induction false} DedupFacts(records: seq<Record>)
    ensures Distinct(Dedup(records))
    ensures Elems(Dedup(records)) == Elems(records)
    ensures FirstSeen(Dedup(records)) == FirstSeen(records)
  {
    if records != [] {
      var p, r := records[..|records| - 1], records[|records| - 1];
      var d := Dedup(p);
      DedupFacts(p);
      assert Elems(records) == Elems(p) + {r} && FirstSeen(records) == FirstSeen(p + [r]) by {
        assert records == p + [r];
        ElemsSnoc(p, r);
      }
      if r in p {
        assert Dedup(records) == d;
        DuplicateRecordIgnored(p, r);
      } else {
        assert Dedup(records) == d + [r];
        assert r !in Elems(d);
        ElemsSnoc(d, r);
        DistinctSnoc(d, r);
        FirstSeenSnoc(d, r);
        FirstSeenSnoc(p, r);
      }
    }
  }

  /** Every prefix of the record list yields a prefix of the key order: an exam met earlier is listed earlier. */
  lemma {:induction false} FirstSeenPrefix(records: seq<Record>, k: nat)
    requires k <= |records|
    ensures FirstSeen(records[..k]) <= FirstSeen(records)
    decreases |records| - k
  {
    if k < |records| {
      var n := |records|;
      FirstSeenPrefix(records[..n - 1], k);
      assert records[..n - 1][..k] == records[..k];
    } else {
      assert records[..k] == records;
    }
  }

  /** Two grouped exams' student sets meet exactly when some student has a record for both. */
  lemma SharedStudent(records: seq<Record>, a: Exam, b: Exam)
    requires a in ExamStudents(records) && b in ExamStudents(records)
    ensures ExamStudents(records)[a] * ExamStudents(records)[b] != {}
        <==> exists s :: Record(s, a) in records && Record(s, b) in records
  {
    var m := ExamStudents(records);
    if m[a] * m[b] != {} {
      var s :| s in m[a] * m[b];
      GroupingExact(records, a, s);
      GroupingExact(records, b, s);
    }
    if exists s :: Record(s, a) in records && Record(s, b) in records {
      var s :| Record(s, a) in records && Record(s, b) in records;
      GroupingExact(records, a, s);
      GroupingExact(records, b, s);
      assert s in m[a] * m[b];
    }
  }
}

=== FILE: largest_first.dfy ===
/**
 * The vertex order of the largest-first strategy used at app.py:39: the
 * vertices sorted by descending degree, computed once from the finished graph.
 * The sort is stable, so exams of equal degree keep the order in which the
 * graph received them (their first-seen order in the records).
 */
module LargestFirst {
  import opened Seqs
  import opened Grouping
  import opened ConflictGraph

  /** Degrees never increase along `s`. */
  ghost predicate ByDescendingDegree(g: Graph, s: seq<Exam>)
  {
    forall i, j :: 0 <= i < j < |s| ==> Degree(g, s[i]) >= Degree(g, s[j])
  }

  /** The exams of `s` whose degree is `d`, in their order in `s`. */
  ghost function WithDegree(g: Graph, s: seq<Exam>, d: nat): seq<Exam>
  {
    if s == [] then []
    else (if Degree(g, s[0]) == d then [s[0]] else []) + WithDegree(g, s[1..], d)
  }

  /** Places `v` after every exam of `s` whose degree is at least its own. */
  function InsertByDegree(g: Graph, v: Exam, s: seq<Exam>): (r: seq<Exam>)
    ensures |r| == |s| + 1
  {
    if s == [] then [v]
    else if Degree(g, s[0]) < Degree(g, v) then [v] + s
    else [s[0]] + InsertByDegree(g, v, s[1..])
  }

  /** Insertion adds `v` and loses nothing. */
  lemma {:induction false} InsertByDegreePermutes(g: Graph, v: Exam, s: seq<Exam>)
    ensures multiset(InsertByDegree(g, v, s)) == multiset(s) + multiset{v}
  {
    if s == [] {
      assert InsertByDegree(g, v, s) == [v];
    } else if Degree(g, s[0]) < Degree(g, v) {
      assert InsertByDegree(g, v, s) == [v] + s;
    } else {
      var h, t := s[0], s[1..];
      calc {
        multiset(InsertByDegree(g, v, s));
        multiset([h] + InsertByDegree(g, v, t));
        multiset{h} + multiset(InsertByDegree(g, v, t));
      == { InsertByDegreePermutes(g, v, t); }
        multiset{h} + (multiset(t) + multiset{v});
      == { assert s == [h] + t; }
        multiset(s) + multiset{v};
      }
    }
  }

  /** Stable sort of `s` by descending degree (`sorted(G, key=G.degree, reverse=True)`). */
  function SortByDegree(g: Graph, s: seq<Exam>): (r: seq<Exam>)
    ensures |r| == |s|
    ensures ByDescendingDegree(g, r)
  {
    if s == [] then []
    else
      var sorted := SortByDegree(g, s[..|s| - 1]);
      InsertKeepsOrder(g, s[|s| - 1], sorted);
      InsertByDegree(g, s[|s| - 1], sorted)
  }

  /** The processing order of the greedy pass: the graph's vertices, largest degree first. */
  function LargestFirstOrder(g: Graph): (order: seq<Exam>)
    ensures |order| == |g.vertices|
    ensures ByDescendingDegree(g, order)
  {
    SortByDegree(g, g.vertices)
  }

  /** Putting in front an exam whose degree is at least every degree in `s` keeps the order descending. */
  lemma ConsDescending(g: Graph, h: Exam, s: seq<Exam>)
    requires ByDescendingDegree(g, s)
    requires forall k :: 0 <= k < |s| ==> Degree(g, s[k]) <= Degree(g, h)
    ensures ByDescendingDegree(g, [h] + s)
  {
    var r := [h] + s;
    forall i, j | 0 <= i < j < |r| ensures Degree(g, r[i]) >= Degree(g, r[j]) {
      assert r[j] == s[j - 1];
      if i > 0 {
        assert r[i] == s[i - 1];
      }
    }
  }

  lemma {:induction false} InsertKeepsOrder(g: Graph, v: Exam, s: seq<Exam>)
    requires ByDescendingDegree(g, s)
    ensures ByDescendingDegree(g, InsertByDegree(g, v, s))
  {
    if s == [] {
    } else if Degree(g, s[0]) < Degree(g, v) {
      assert InsertByDegree(g, v, s) == [v] + s;
      forall k | 0 <= k < |s| ensures Degree(g, s[k]) <= Degree(g, v) {
        if k > 0 {
          assert Degree(g, s[0]) >= Degree(g, s[k]);
        }
      }
      ConsDescending(g, v, s);
    } else {
      var h, rest := s[0], s[1..];
      var t := InsertByDegree(g, v, rest);
      assert InsertByDegree(g, v, s) == [h] + t;
      InsertByDegreePermutes(g, v, rest);
      assert ByDescendingDegree(g, t) by {
        DescendingTail(g, s);
        InsertKeepsOrder(g, v, rest);
      }
      forall k | 0 <= k < |t| ensures Degree(g, t[k]) <= Degree(g, h) {
        assert t[k] in multiset(t);
        if t[k] != v {
          assert t[k] in multiset(rest);
          var m :| 0 <= m < |rest| && rest[m] == t[k];
          assert s[m + 1] == t[k];
        }
      }
      ConsDescending(g, h, t);
    }
  }

  /** `[v]` when `v` has degree `d`, otherwise nothing: what `v` contributes to `WithDegree`. */
  ghost function IfDegree(g: Graph, v: Exam, d: nat): seq<Exam>
  {
    if Degree(g, v) == d then [v] else []
  }

  lemma WithDegreeCons(g: Graph, v: Exam, s: seq<Exam>, d: nat)
    ensures WithDegree(g, [v] + s, d) == IfDegree(g, v, d) + WithDegree(g, s, d)
  {
    assert ([v] + s)[0] == v;
    assert ([v] + s)[1..] == s;
  }

  lemma {:induction false} WithDegreeAppend(g: Graph, a: seq<Exam>, b: seq<Exam>, d: nat)
    ensures WithDegree(g, a + b, d) == WithDegree(g, a, d) + WithDegree(g, b, d)
  {
    if a == [] {
      assert a + b == b;
    } else {
      var h, t := a[0], a[1..];
      assert a + b == [h] + (t + b) && a == [h] + t;
      calc {
        WithDegree(g, a + b, d);
      ==
        WithDegree(g, [h] + (t + b), d);
      == { WithDegreeCons(g, h, t + b, d); }
        IfDegree(g, h, d) + WithDegree(g, t + b, d);
      == { WithDegreeAppend(g, t, b, d); }
        IfDegree(g, h, d) + (WithDegree(g, t, d) + WithDegree(g, b, d));
      == { WithDegreeCons(g, h, t, d); }
        WithDegree(g, a, d) + WithDegree(g, b, d);
      }
    }
  }

  lemma {:induction false} NoneWithDegree(g: Graph, s: seq<Exam>, d: nat)
    requires forall k :: 0 <= k < |s| ==> Degree(g, s[k]) < d
    ensures WithDegree(g, s, d) == []
  {
    if s != [] {
      NoneWithDegree(g, s[1..], d);
    }
  }

  /** The tail of a sequence ordered by descending degree is ordered too. */
  lemma DescendingTail(g: Graph, s: seq<Exam>)
    requires s != [] && ByDescendingDegree(g, s)
    ensures ByDescendingDegree(g, s[1..])
  {
    var rest := s[1..];
    forall i, j | 0 <= i < j < |rest| ensures Degree(g, rest[i]) >= Degree(g, rest[j]) {
      assert rest[i] == s[i + 1] && rest[j] == s[j + 1];
    }
  }

  /** Inserting `v` puts it behind every exam of the same degree. */
  lemma {:induction false} InsertStable(g: Graph, v: Exam, s: seq<Exam>, d: nat)
    requires ByDescendingDegree(g, s)
    ensures WithDegree(g, InsertByDegree(g, v, s), d) == WithDegree(g, s, d) + IfDegree(g, v, d)
    decreases |s|, 1
  {
    if s == [] {
      calc {
        WithDegree(g, InsertByDegree(g, v, s), d);
      == { assert InsertByDegree(g, v, s) == [v] + []; }
        WithDegree(g, [v] + [], d);
      == { WithDegreeCons(g, v, [], d); }
        WithDegree(g, s, d) + IfDegree(g, v, d);
      }
    } else if Degree(g, s[0]) < Degree(g, v) {
      InsertStableFront(g, v, s, d);
    } else {
      InsertStableBehind(g, v, s, d);
    }
  }

  /** `v` does not outrank the head of `s`, so it is inserted into the tail. */
  lemma {:induction false} InsertStableBehind(g: Graph, v: Exam, s: seq<Exam>, d: nat)
    requires ByDescendingDegree(g, s)
    requires s != [] && Degree(g, s[0]) >= Degree(g, v)
    ensures WithDegree(g, InsertByDegree(g, v, s), d) == WithDegree(g, s, d) + IfDegree(g, v, d)
    decreases |s|, 0
  {
    var h, rest := s[0], s[1..];
    var t := InsertByDegree(g, v, rest);
    calc {
      WithDegree(g, InsertByDegree(g, v, s), d);
    == { assert InsertByDegree(g, v, s) == [h] + t; }
      WithDegree(g, [h] + t, d);
    == { WithDegreeCons(g, h, t, d); }
      IfDegree(g, h, d) + WithDegree(g, t, d);
    == { DescendingTail(g, s); InsertStable(g, v, rest, d); }
      IfDegree(g, h, d) + (WithDegree(g, rest, d) + IfDegree(g, v, d));
    == { WithDegreeCons(g, h, rest, d); assert s == [h] + rest; }
      WithDegree(g, s, d) + IfDegree(g, v, d);
    }
  }

  /** `v` outranks the head of `s`, so it goes first; nothing of its degree is in `s` when it is the largest. */
  lemma InsertStableFront(g: Graph, v: Exam, s: seq<Exam>, d: nat)
    requires ByDescendingDegree(g, s)
    requires s != [] && Degree(g, s[0]) < Degree(g, v)
    ensures WithDegree(g, InsertByDegree(g, v, s), d) == WithDegree(g, s, d) + IfDegree(g, v, d)
  {
    assert WithDegree(g, InsertByDegree(g, v, s), d) == IfDegree(g, v, d) + WithDegree(g, s, d) by {
      assert InsertByDegree(g, v, s) == [v] + s;
      WithDegreeCons(g, v, s, d);
    }
    if Degree(g, v) == d {
      forall k | 0 <= k < |s| ensures Degree(g, s[k]) < d {
        if k > 0 {
          assert Degree(g, s[0]) >= Degree(g, s[k]);
        }
      }
      NoneWithDegree(g, s, d);
    }
  }

  /** The order is a permutation of the vertices with degrees never increasing along it. */
  lemma {:induction false} SortByDegreeSorted(g: Graph, s: seq<Exam>)
    ensures multiset(SortByDegree(g, s)) == multiset(s)
    ensures ByDescendingDegree(g, SortByDegree(g, s))
  {
    if s != [] {
      var p, v := s[..|s| - 1], s[|s| - 1];
      var sorted := SortByDegree(g, p);
      assert SortByDegree(g, s) == InsertByDegree(g, v, sorted);
      SortByDegreeSorted(g, p);
      InsertKeepsOrder(g, v, sorted);
      calc {
        multiset(InsertByDegree(g, v, sorted));
      == { InsertByDegreePermutes(g, v, sorted); }
        multiset(sorted) + multiset{v};
        multiset(p) + multiset{v};
      == { assert s == p + [v]; }
        multiset(s);
      }
    }
  }

  /**
   * The tie-break: for every degree, the exams of that degree appear in the
   * sorted order exactly as they appear in the input order.
   */
  lemma {:induction false} SortByDegreeStable(g: Graph, s: seq<Exam>, d: nat)
    ensures WithDegree(g, SortByDegree(g, s), d) == WithDegree(g, s, d)
  {
    if s != [] {
      var p, v := s[..|s| - 1], s[|s| - 1];
      var sorted := SortByDegree(g, p);
      SortByDegreeStable(g, p, d);
      SortByDegreeSorted(g, p);
      InsertStable(g, v, sorted, d);
      WithDegreeSnoc(g, s, d);
    }
  }

  lemma WithDegreeSnoc(g: Graph, s: seq<Exam>, d: nat)
    requires s != []
    ensures WithDegree(g, s, d) == WithDegree(g, s[..|s| - 1], d) + IfDegree(g, s[|s| - 1], d)
  {
    var p, v := s[..|s| - 1], s[|s| - 1];
    calc {
      WithDegree(g, s, d);
    == { assert s == p + [v]; }
      WithDegree(g, p + [v], d);
    == { WithDegreeAppend(g, p, [v], d); }
      WithDegree(g, p, d) + WithDegree(g, [v], d);
    == { WithDegreeCons(g, v, [], d); assert [v] + [] == [v]; }
      WithDegree(g, p, d) + IfDegree(g, v, d);
    }
  }

  /** A permutation of distinct exams is itself free of repeats and has the same elements. */
  lemma PermutationDistinct(a: seq<Exam>, b: seq<Exam>)
    requires multiset(a) == multiset(b) && Distinct(a)
    ensures Distinct(b) && Elems(b) == Elems(a)
  {
    forall x ensures x in a <==> x in b {
      assert x in a <==> x in multiset(a);
      assert x in b <==> x in multiset(b);
    }
    if !Distinct(b) {
      var i, j :| 0 <= i < j < |b| && b[i] == b[j];
      assert b == b[..i] + [b[i]] + b[i + 1..j] + [b[j]] + b[j + 1..];
      assert multiset(b)[b[i]] >= 2;
      DistinctCount(a, b[i]);
    }
  }

  lemma {:induction false} DistinctCount(a: seq<Exam>, x: Exam)
    requires Distinct(a)
    ensures multiset(a)[x] <= 1
  {
    if a != [] {
      assert a == [a[0]] + a[1..];
      DistinctCount(a[1..], x);
      if a[0] == x {
        assert x !in a[1..];
      }
    }
  }

  /** The largest-first order visits every vertex exactly once, by descending degree, ties in insertion order. */
  lemma LargestFirstOrderSpec(g: Graph)
    requires Valid(g)
    ensures Distinct(LargestFirstOrder(g)) && Elems(LargestFirstOrder(g)) == Elems(g.vertices)
    ensures |LargestFirstOrder(g)| == |g.vertices|
    ensures ByDescendingDegree(g, LargestFirstOrder(g))
    ensures forall d: nat :: WithDegree(g, LargestFirstOrder(g), d) == WithDegree(g, g.vertices, d)
  {
    SortByDegreeSorted(g, g.vertices);
    PermutationDistinct(g.vertices, LargestFirstOrder(g));
    assert |multiset(LargestFirstOrder(g))| == |multiset(g.vertices)|;
    forall d: nat ensures WithDegree(g, LargestFirstOrder(g), d) == WithDegree(g, g.vertices, d) {
      SortByDegreeStable(g, g.vertices, d);
    }
  }
}

=== FILE: scheduler.dfy ===
/**
 * The whole scheduling pipeline of app.py:21-51: group the records, build the
 * conflict graph, colour it largest-first, invert the colouring into slots
 * and flatten the slots into timetable rows.
 *
 * `ConflictsOf`, `SlotsFor` and `TimetableFor` say what each stage yields for
 * a list of records; `Schedule` computes them step by step, and the lemmas
 * below state what the schedule promises.
 */
module Scheduler {
  import opened Seqs
  import opened Grouping
  import opened ConflictGraph
  import opened LargestFirst
  import opened Greedy
  import opened ExamNames
  import opened Timetable

  /** The conflict graph of the records: exams in first-seen order, an edge for every scanned clash. */
  ghost function ConflictsOf(records: seq<Record>): Graph
  {
    var exams := FirstSeen(records);
    Graph(exams, ScanRows(ExamStudents(records), exams, |exams|))
  }

  /** The largest-first greedy slot of every exam. */
  ghost function SlotsFor(records: seq<Record>): (slots: map<Exam, nat>)
    ensures slots.Keys == Elems(LargestFirstOrder(ConflictsOf(records)))
  {
    var g := ConflictsOf(records);
    Coloring(g, LargestFirstOrder(g))
  }

  /** The timetable rows of the records. */
  ghost function TimetableFor(records: seq<Record>): seq<Row>
  {
    var order := LargestFirstOrder(ConflictsOf(records));
    assert forall v :: v in order ==> v in Elems(order);
    TimetableData(SlotGroups(order, SlotsFor(records)))
  }

  /** app.py:21-51 on records already parsed from the uploaded table. */
  method Schedule(records: seq<Record>) returns (g: Graph, slots: map<Exam, nat>, rows: seq<Row>)
    ensures g == ConflictsOf(records)
    ensures slots == SlotsFor(records)
    ensures rows == TimetableFor(records)
    ensures Valid(g) && Proper(g, slots)
  {
    var examStudents, exams := GroupRecords(records);
    g := BuildGraph(examStudents, exams);
    var order;
    order, slots := GreedyColor(g);
    var slotToExams := GroupBySlot(order, slots);
    rows := Flatten(slotToExams);
  }

  /**
   * The graph has one vertex per exam, in first-seen order, and an edge
   * exactly between two exams that some student sits both of.
   */
  lemma ConflictsOfSpec(records: seq<Record>)
    ensures Valid(ConflictsOf(records))
    ensures ConflictsOf(records).vertices == FirstSeen(records)
    ensures forall a, b :: a in ConflictsOf(records).adj && b in ConflictsOf(records).adj ==>
              (b in ConflictsOf(records).adj[a] <==> a != b && exists s :: Record(s, a) in records && Record(s, b) in records)
  {
    var g := ConflictsOf(records);
    ScanGraph(ExamStudents(records), FirstSeen(records));
    forall a, b | a in g.adj && b in g.adj
      ensures b in g.adj[a] <==> a != b && exists s :: Record(s, a) in records && Record(s, b) in records
    {
      SharedStudent(records, a, b);
    }
  }

  /**
   * Every exam gets a slot; no two conflicting exams share one; an exam's slot
   * is at most its number of conflicts; at most max-degree + 1 slots are used.
   */
  lemma SlotsForSpec(records: seq<Record>)
    ensures SlotsFor(records).Keys == Elems(ConflictsOf(records).vertices)
    ensures Proper(ConflictsOf(records), SlotsFor(records))
    ensures forall e :: e in SlotsFor(records) ==> SlotsFor(records)[e] <= Degree(ConflictsOf(records), e)
    ensures |SlotsFor(records).Values| <= MaxDegree(ConflictsOf(records), ConflictsOf(records).vertices) + 1
  {
    var g := ConflictsOf(records);
    var order := LargestFirstOrder(g);
    assert Valid(g) by {
      ScanGraph(ExamStudents(records), FirstSeen(records));
    }
    assert Distinct(order) && Elems(order) == Elems(g.vertices) by {
      LargestFirstOrderSpec(g);
    }
    ColoringProper(g, order);
    ColoringWithinDegree(g, order);
    assert forall v :: v in order ==> v in g.vertices by {
      assert forall v :: v in order ==> v in Elems(order);
    }
    SlotCountBound(g, order);
  }

  /**
   * The timetable lists every exam exactly once, labelled with its slot plus
   * one, slots ascending down the table and names ascending within a slot.
   */
  lemma TimetableForSpec(records: seq<Record>)
    ensures multiset(ExamColumn(TimetableFor(records))) == multiset(ConflictsOf(records).vertices)
    ensures forall i :: 0 <= i < |TimetableFor(records)| ==>
              TimetableFor(records)[i].exam in SlotsFor(records) &&
              TimetableFor(records)[i].timeSlot == SlotsFor(records)[TimetableFor(records)[i].exam] + 1
    ensures Ordered(TimetableFor(records))
  {
    var g := ConflictsOf(records);
    var order := LargestFirstOrder(g);
    var slots := SlotsFor(records);
    assert forall v :: v in order ==> v in Elems(order);
    TimetableOfAssignment(order, slots);
    SortByDegreeSorted(g, g.vertices);
  }

  /**
   * A repeated record, wherever it sits after its first occurrence, changes
   * neither the conflict graph nor, therefore, the slots or the timetable.
   */
  lemma DuplicateRecordNoEffect(before: seq<Record>, r: Record, after: seq<Record>)
    requires r in before
    ensures ConflictsOf(before + [r] + after) == ConflictsOf(before + after)
    ensures SlotsFor(before + [r] + after) == SlotsFor(before + after)
    ensures TimetableFor(before + [r] + after) == TimetableFor(before + after)
  {
    FirstSeenDuplicate(before, r, after);
    assert Elems(before + [r] + after) == Elems(before + after) by {
      assert forall x :: x in before + [r] + after <==> x in before || x == r || x in after;
      assert forall x :: x in before + after <==> x in before || x in after;
    }
    SameRecordsSameGrouping(before + [r] + after, before + after);
  }

  /** Records with repeats schedule exactly as the same records with every repeat dropped. */
  lemma DedupSameSchedule(records: seq<Record>)
    ensures Distinct(Dedup(records))
    ensures ConflictsOf(Dedup(records)) == ConflictsOf(records)
    ensures SlotsFor(Dedup(records)) == SlotsFor(records)
    ensures TimetableFor(Dedup(records)) == TimetableFor(records)
  {
    DedupFacts(records);
    SameRecordsSameGrouping(Dedup(records), records);
  }

  /** No records, no exams, no slots and an empty timetable. */
  lemma EmptySchedule()
    ensures ConflictsOf([]).vertices == []
    ensures SlotsFor([]) == map[]
    ensures TimetableFor([]) == []
  {
    TimetableForSpec([]);
    assert |multiset(ExamColumn(TimetableFor([])))| == 0;
  }
}

=== FILE: seqs.dfy ===
/** Small facts about sequences, sets of naturals and their sizes, shared by the scheduler modules. */
module Seqs {

  /** No element occurs twice in `s`. */
  ghost predicate Distinct<T>(s: seq<T>)
  {
    forall i, j :: 0 <= i < j < |s| ==> s[i] != s[j]
  }

  /** In a sequence without repeats, the element at k occurs neither before nor after k. */
  lemma DistinctSplit<T>(s: seq<T>, k: nat)
    requires Distinct(s) && k < |s|
    ensures s[k] !in s[..k] && s[k] !in s[k + 1..]
  {
    forall i | 0 <= i < |s| && i != k ensures s[i] != s[k] {
      if i < k {
        assert s[i] != s[k];
      } else {
        assert s[k] != s[i];
      }
    }
  }

  lemma DistinctPrefix<T>(s: seq<T>, k: nat)
    requires Distinct(s) && k <= |s|
    ensures Distinct(s[..k])
  {
    var p := s[..k];
    forall i, j | 0 <= i < j < |p| ensures p[i] != p[j] {
      assert p[i] == s[i] && p[j] == s[j];
    }
  }

  /** The elements of `s`, as a set. */
  ghost function Elems<T>(s: seq<T>): set<T>
  {
    set x | x in s
  }

  lemma ElemsSnoc<T>(s: seq<T>, x: T)
    ensures Elems(s + [x]) == Elems(s) + {x}
  {
    assert forall y :: y in s + [x] <==> y in s || y == x;
  }

  /** Appending an element not yet present keeps a sequence free of repeats. */
  lemma DistinctSnoc<T>(s: seq<T>, x: T)
    requires Distinct(s) && x !in Elems(s)
    ensures Distinct(s + [x])
  {
    var t := s + [x];
    forall i, j | 0 <= i < j < |t| ensures t[i] != t[j] {
      if j == |s| {
        assert t[i] == s[i];
      } else {
        assert t[i] == s[i] && t[j] == s[j];
      }
    }
  }

  /** The naturals below `n`. */
  ghost function Below(n: nat): (r: set<nat>)
    ensures forall k: nat :: k in r <==> k < n
    ensures |r| == n
  {
    if n == 0 then {} else Below(n - 1) + {n - 1}
  }

  /** A set holding every natural below `n` has at least `n` elements. */
  lemma HoldsBelowBound(used: set<nat>, n: nat)
    requires forall k: nat :: k < n ==> k in used
    ensures n <= |used|
  {
    assert Below(n) <= used;
    SubsetSize(Below(n), used);
  }

  lemma {:induction false} SubsetSize<T>(a: set<T>, b: set<T>)
    requires a <= b
    ensures |a| <= |b|
  {
    if a != {} {
      var x :| x in a;
      SubsetSize(a - {x}, b - {x});
    }
  }

  /** The least element of a non-empty set of naturals. */
  ghost function Least(keys: set<nat>): (s: nat)
    requires keys != {}
    ensures s in keys && forall t :: t in keys ==> s <= t
    decreases keys
  {
    var x :| x in keys;
    if keys == {x} then x
    else
      var y := Least(keys - {x});
      assert forall t :: t in keys ==> t == x || t in keys - {x};
      if x < y then x else y
  }
}

=== FILE: timetable.dfy ===
/**
 * From slot assignment to timetable (app.py:40-51). The assignment is first
 * inverted into a map from slot to the exams in it; then the slots are
 * visited in ascending order and, inside each slot, the exams in name order,
 * emitting one row per exam with the 1-based slot label.
 *
 * `time_slots` is a dict whose keys are in colouring order; it is modelled as
 * that order together with the slot map.
 */
module Timetable {
  import opened Seqs
  import opened Grouping
  import opened ExamNames

  /** One line of the exported table: `{"Time Slot": label, "Exam": exam}`. */
  datatype Row = Row(timeSlot: nat, exam: Exam)

  /** `slot_to_exams` after appending the exams of `order`, one by one, to their slot's list. */
  ghost function SlotGroups(order: seq<Exam>, slots: map<Exam, nat>): (groups: map<nat, seq<Exam>>)
    requires forall v :: v in order ==> v in slots
    ensures forall s :: s in groups ==> groups[s] != []
  {
    if order == [] then map[]
    else
      var v := order[|order| - 1];
      var earlier := SlotGroups(order[..|order| - 1], slots);
      earlier[slots[v] := (if slots[v] in earlier then earlier[slots[v]] else []) + [v]]
  }

  /** All exams of the lists of `groups`, counted with multiplicity (slots taken least first). */
  ghost function Pooled(groups: map<nat, seq<Exam>>): multiset<Exam>
    decreases |groups|
  {
    if groups == map[] then multiset{}
    else
      var s := Least(groups.Keys);
      multiset(groups[s]) + Pooled(groups - {s})
  }

  /** The rows emitted for one slot. */
  function RowsFor(slot: nat, exams: seq<Exam>): (rows: seq<Row>)
    ensures ExamColumn(rows) == exams
    ensures forall i :: 0 <= i < |rows| ==> rows[i].timeSlot == slot + 1
  {
    seq(|exams|, i requires 0 <= i < |exams| => Row(slot + 1, exams[i]))
  }

  /** `timetable_data` for `groups`: slots ascending, names ascending within a slot. */
  ghost function TimetableData(groups: map<nat, seq<Exam>>): (rows: seq<Row>)
    ensures forall i :: 0 <= i < |rows| ==> rows[i].timeSlot >= 1
    decreases |groups|
  {
    if groups == map[] then []
    else
      var s := Least(groups.Keys);
      RowsFor(s, SortNames(groups[s])) + TimetableData(groups - {s})
  }

  /** The exam column of a table. */
  function ExamColumn(rows: seq<Row>): (exams: seq<Exam>)
    ensures |exams| == |rows|
    ensures forall i :: 0 <= i < |rows| ==> exams[i] == rows[i].exam
  {
    seq(|rows|, i requires 0 <= i < |rows| => rows[i].exam)
  }

  /** The loop of app.py:40-42: append each exam to the list of its slot. */
  method GroupBySlot(order: seq<Exam>, slots: map<Exam, nat>) returns (groups: map<nat, seq<Exam>>)
    requires forall v :: v in order ==> v in slots
    ensures groups == SlotGroups(order, slots)
    ensures groups.Keys == set v | v in order :: slots[v]
    ensures forall s, e :: s in groups ==> (e in groups[s] <==> e in order && slots[e] == s)
  {
    groups := map[];
    for k := 0 to |order|
      invariant groups == SlotGroups(order[..k], slots)
    {
      var exam := order[k];
      var slot := slots[exam];
      assert order[..k + 1][..k] == order[..k];
      var list := if slot in groups then groups[slot] else [];
      groups := groups[slot := list + [exam]];
    }
    assert order[..|order|] == order;
    SlotGroupsInverts(order, slots);
  }

  /**
   * The loop of app.py:46-51: for each slot in ascending order, for each of
   * its exams in name order, append the row labelled `slot + 1`.
   */
  method Flatten(groups: map<nat, seq<Exam>>) returns (rows: seq<Row>)
    ensures rows == TimetableData(groups)
  {
    rows := [];
    var rest := groups;
    while rest.Keys != {}
      invariant rows + TimetableData(rest) == TimetableData(groups)
      decreases |rest.Keys|
    {
      assert Least(rest.Keys) in rest.Keys;
      var slot :| slot in rest.Keys && forall t :: t in rest.Keys ==> slot <= t;
      var examsInSlot := SortNames(rest[slot]);
      FlattenStep(groups, rest, rows, slot);
      rows := AppendSlotRows(rows, slot, examsInSlot);
      assert (rest - {slot}).Keys == rest.Keys - {slot};
      rest := rest - {slot};
    }
  }

  /** Emitting the least remaining slot's rows keeps the rows emitted so far a prefix of the timetable. */
  lemma FlattenStep(groups: map<nat, seq<Exam>>, rest: map<nat, seq<Exam>>, rows: seq<Row>, slot: nat)
    requires rows + TimetableData(rest) == TimetableData(groups)
    requires slot in rest.Keys && forall t :: t in rest.Keys ==> slot <= t
    ensures (rows + RowsFor(slot, SortNames(rest[slot]))) + TimetableData(rest - {slot}) == TimetableData(groups)
  {
    var head, tail := RowsFor(slot, SortNames(rest[slot])), TimetableData(rest - {slot});
    calc {
      TimetableData(groups);
    ==
      rows + TimetableData(rest);
    == { TimetableStep(rest, slot); }
      rows + (head + tail);
    == { AppendAssociative(rows, head, tail); }
      (rows + head) + tail;
    }
  }

  lemma AppendAssociative(a: seq<Row>, b: seq<Row>, c: seq<Row>)
    ensures a + (b + c) == (a + b) + c
  {
  }

  /** The inner loop of app.py:50-51: one row per exam of the slot, in the given order. */
  method AppendSlotRows(rows: seq<Row>, slot: nat, exams: seq<Exam>) returns (rows': seq<Row>)
    ensures rows' == rows + RowsFor(slot, exams)
  {
    rows' := rows;
    for k := 0 to |exams|
      invariant rows' == rows + RowsFor(slot, exams[..k])
    {
      RowsForSnoc(slot, exams, k);
      rows' := rows' + [Row(slot + 1, exams[k])];
    }
    assert exams[..|exams|] == exams;
  }

  /** The first rows of a timetable are those of its least slot. */
  lemma TimetableStep(groups: map<nat, seq<Exam>>, slot: nat)
    requires slot in groups.Keys && forall t :: t in groups.Keys ==> slot <= t
    ensures TimetableData(groups) == RowsFor(slot, SortNames(groups[slot])) + TimetableData(groups - {slot})
  {
    var s := Least(groups.Keys);
    assert s <= slot && slot <= s;
  }

  lemma RowsForSnoc(slot: nat, exams: seq<Exam>, k: nat)
    requires k < |exams|
    ensures RowsFor(slot, exams[..k + 1]) == RowsFor(slot, exams[..k]) + [Row(slot + 1, exams[k])]
  {
  }

  /**
   * Grouping inverts the assignment: the slots are exactly those used, and an
   * exam is in a slot's list exactly when it is assigned that slot.
   */
  lemma SlotGroupsInverts(order: seq<Exam>, slots: map<Exam, nat>)
    requires forall v :: v in order ==> v in slots
    ensures SlotGroups(order, slots).Keys == set v | v in order :: slots[v]
    ensures forall s, e :: s in SlotGroups(order, slots) ==>
              (e in SlotGroups(order, slots)[s] <==> e in order && slots[e] == s)
  {
    SlotGroupsKeys(order, slots);
    SlotGroupsMembers(order, slots);
  }

  lemma {:induction false} SlotGroupsKeys(order: seq<Exam>, slots: map<Exam, nat>)
    requires forall v :: v in order ==> v in slots
    ensures SlotGroups(order, slots).Keys == set v | v in order :: slots[v]
  {
    if order != [] {
      var p, v := order[..|order| - 1], order[|order| - 1];
      assert forall x :: x in order <==> x in p || x == v by {
        assert order == p + [v];
      }
      SlotGroupsKeys(p, slots);
    }
  }

  lemma {:induction false} SlotGroupsMembers(order: seq<Exam>, slots: map<Exam, nat>)
    requires forall v :: v in order ==> v in slots
    ensures forall s, e :: s in SlotGroups(order, slots) ==>
              (e in SlotGroups(order, slots)[s] <==> e in order && slots[e] == s)
  {
    if order != [] {
      var p, v := order[..|order| - 1], order[|order| - 1];
      assert forall x :: x in order <==> x in p || x == v by {
        assert order == p + [v];
      }
      SlotGroupsMembers(p, slots);
      SlotGroupsKeys(p, slots);
    }
  }

  /** Each slot's list holds its exams once each, in the order they were coloured. */
  lemma {:induction false} SlotGroupsDistinct(order: seq<Exam>, slots: map<Exam, nat>)
    requires forall v :: v in order ==> v in slots
    requires Distinct(order)
    ensures forall s :: s in SlotGroups(order, slots) ==> Distinct(SlotGroups(order, slots)[s])
  {
    if order != [] {
      var p, v := order[..|order| - 1], order[|order| - 1];
      SlotGroupsDistinct(p, slots);
      SlotGroupsInverts(p, slots);
      assert v !in p;
    }
  }

  /** Pooling does not depend on which slot is taken first. */
  lemma {:induction false} PooledAny(groups: map<nat, seq<Exam>>, k: nat)
    requires k in groups
    ensures Pooled(groups) == multiset(groups[k]) + Pooled(groups - {k})
    decreases |groups|
  {
    var s := Least(groups.Keys);
    if s != k {
      var rest := groups - {s};
      PooledAny(rest, k);
      assert rest - {k} == (groups - {k}) - {s};
      var other := groups - {k};
      assert other.Keys == groups.Keys - {k};
      assert s in other.Keys;
      assert Least(other.Keys) in groups.Keys;
      assert Least(other.Keys) == s;
      assert other - {s} == rest - {k};
    }
  }

  /** Over all slots, the grouped lists hold every exam of the order exactly as often as the order does. */
  lemma {:induction false} SlotGroupsPooled(order: seq<Exam>, slots: map<Exam, nat>)
    requires forall v :: v in order ==> v in slots
    ensures Pooled(SlotGroups(order, slots)) == multiset(order)
  {
    if order != [] {
      var p, v := order[..|order| - 1], order[|order| - 1];
      assert order == p + [v];
      SlotGroupsSnoc(p, v, slots);
      SlotGroupsPooled(p, slots);
      PooledAppend(SlotGroups(p, slots), slots[v], v);
    }
  }

  /** One more exam of the order is appended to its slot's list. */
  lemma SlotGroupsSnoc(p: seq<Exam>, v: Exam, slots: map<Exam, nat>)
    requires forall x :: x in p + [v] ==> x in slots
    ensures forall x :: x in p ==> x in slots
    ensures SlotGroups(p + [v], slots)
         == SlotGroups(p, slots)[slots[v] := (if slots[v] in SlotGroups(p, slots) then SlotGroups(p, slots)[slots[v]] else []) + [v]]
  {
    assert forall x :: x in p ==> x in p + [v];
    assert (p + [v])[..|p|] == p;
  }

  /** Appending an exam to one slot's list adds it once to the pool. */
  lemma PooledAppend(groups: map<nat, seq<Exam>>, s: nat, v: Exam)
    ensures Pooled(groups[s := (if s in groups then groups[s] else []) + [v]]) == Pooled(groups) + multiset{v}
  {
    var list := if s in groups then groups[s] else [];
    var groups' := groups[s := list + [v]];
    var rest := groups - {s};
    assert Pooled(groups) == multiset(list) + Pooled(rest) by {
      if s in groups {
        PooledAny(groups, s);
      } else {
        assert rest == groups;
      }
    }
    calc {
      Pooled(groups');
    == { PooledAny(groups', s); }
      multiset(list + [v]) + Pooled(groups' - {s});
    == { assert groups' - {s} == rest; }
      multiset(list + [v]) + Pooled(rest);
    ==
      multiset(list) + multiset{v} + Pooled(rest);
    }
  }

  lemma ExamColumnAppend(a: seq<Row>, b: seq<Row>)
    ensures ExamColumn(a + b) == ExamColumn(a) + ExamColumn(b)
  {
  }

  /** The exam column of a timetable holds exactly the pooled exams of the groups. */
  lemma {:induction false} TimetableExams(groups: map<nat, seq<Exam>>)
    ensures multiset(ExamColumn(TimetableData(groups))) == Pooled(groups)
    decreases |groups|
  {
    if groups != map[] {
      var s := Least(groups.Keys);
      var sorted := SortNames(groups[s]);
      SortNamesAscending(groups[s]);
      TimetableExams(groups - {s});
      ExamColumnAppend(RowsFor(s, sorted), TimetableData(groups - {s}));
      assert ExamColumn(RowsFor(s, sorted)) == sorted;
    }
  }

  /** Every row is labelled with its slot plus one and names an exam of that slot. */
  lemma {:induction false} TimetableRowsSound(groups: map<nat, seq<Exam>>)
    ensures forall i :: 0 <= i < |TimetableData(groups)| ==> RowOf(groups, TimetableData(groups)[i])
    decreases |groups|
  {
    if groups != map[] {
      var s := Least(groups.Keys);
      var sorted := SortNames(groups[s]);
      var head, tail := RowsFor(s, sorted), TimetableData(groups - {s});
      TimetableRowsSound(groups - {s});
      SortNamesAscending(groups[s]);
      forall i | 0 <= i < |head| ensures RowOf(groups, head[i]) {
        assert sorted[i] in multiset(sorted);
      }
      forall i | 0 <= i < |tail| ensures RowOf(groups, tail[i]) {
        assert RowOf(groups - {s}, tail[i]);
      }
      ConcatRows(groups, head, tail);
    }
  }

  /** `row` is labelled with a slot of `groups` plus one and names an exam of that slot. */
  ghost predicate RowOf(groups: map<nat, seq<Exam>>, row: Row)
  {
    row.timeSlot >= 1 && row.timeSlot - 1 in groups && row.exam in groups[row.timeSlot - 1]
  }

  lemma ConcatRows(groups: map<nat, seq<Exam>>, head: seq<Row>, tail: seq<Row>)
    requires forall i :: 0 <= i < |head| ==> RowOf(groups, head[i])
    requires forall i :: 0 <= i < |tail| ==> RowOf(groups, tail[i])
    ensures forall i :: 0 <= i < |head + tail| ==> RowOf(groups, (head + tail)[i])
  {
    forall i | 0 <= i < |head + tail| ensures RowOf(groups, (head + tail)[i]) {
      if i >= |head| {
        assert (head + tail)[i] == tail[i - |head|];
      }
    }
  }

  /** Every exam of every slot has its row, labelled with the slot plus one. */
  lemma {:induction false} TimetableRowsComplete(groups: map<nat, seq<Exam>>)
    ensures forall s, e :: s in groups && e in groups[s] ==> Row(s + 1, e) in TimetableData(groups)
    decreases |groups|
  {
    if groups != map[] {
      var s := Least(groups.Keys);
      var head, tail := RowsFor(s, SortNames(groups[s])), TimetableData(groups - {s});
      assert TimetableData(groups) == head + tail;
      TimetableRowsComplete(groups - {s});
      forall t, e | t in groups && e in groups[t] ensures Row(t + 1, e) in head + tail {
        if t == s {
          SlotRowsComplete(s, groups[s], e);
        } else {
          assert t in groups - {s} && (groups - {s})[t] == groups[t];
        }
      }
    }
  }

  /** Every exam of a slot has its row among the rows emitted for that slot. */
  lemma SlotRowsComplete(slot: nat, exams: seq<Exam>, e: Exam)
    requires e in exams
    ensures Row(slot + 1, e) in RowsFor(slot, SortNames(exams))
  {
    var sorted := SortNames(exams);
    SortNamesAscending(exams);
    assert e in multiset(sorted);
    var k :| 0 <= k < |sorted| && sorted[k] == e;
    assert RowsFor(slot, sorted)[k] == Row(slot + 1, e);
  }

  /** Slots ascending along the rows and, within a slot, exams in name order. */
  ghost predicate Ordered(rows: seq<Row>)
  {
    forall i, j :: 0 <= i < j < |rows| ==>
      rows[i].timeSlot <= rows[j].timeSlot &&
      (rows[i].timeSlot == rows[j].timeSlot ==> NotAfter(rows[i].exam, rows[j].exam))
  }

  lemma OrderedConcat(head: seq<Row>, tail: seq<Row>, slotLabel: nat)
    requires forall i :: 0 <= i < |head| ==> head[i].timeSlot == slotLabel
    requires forall i, j :: 0 <= i < j < |head| ==> NotAfter(head[i].exam, head[j].exam)
    requires forall j :: 0 <= j < |tail| ==> tail[j].timeSlot > slotLabel
    requires Ordered(tail)
    ensures Ordered(head + tail)
  {
    var rows := head + tail;
    forall i, j | 0 <= i < j < |rows|
      ensures rows[i].timeSlot <= rows[j].timeSlot
      ensures rows[i].timeSlot == rows[j].timeSlot ==> NotAfter(rows[i].exam, rows[j].exam)
    {
      if j < |head| {
        assert rows[i] == head[i] && rows[j] == head[j];
      } else if i < |head| {
        assert rows[i] == head[i] && rows[j] == tail[j - |head|];
      } else {
        assert rows[i] == tail[i - |head|] && rows[j] == tail[j - |head|];
      }
    }
  }

  /**
   * Slots appear in ascending order, and within one slot the exams appear in
   * name order.
   */
  lemma {:induction false} TimetableOrdered(groups: map<nat, seq<Exam>>)
    ensures Ordered(TimetableData(groups))
    decreases |groups|
  {
    if groups != map[] {
      var s := Least(groups.Keys);
      var sorted := SortNames(groups[s]);
      var head, tail := RowsFor(s, sorted), TimetableData(groups - {s});
      TimetableOrdered(groups - {s});
      TimetableRowsSound(groups - {s});
      SortNamesAscending(groups[s]);
      forall j | 0 <= j < |tail| ensures tail[j].timeSlot > s + 1 {
        assert RowOf(groups - {s}, tail[j]);
      }
      OrderedConcat(head, tail, s + 1);
    }
  }

  /**
   * The timetable built from an assignment lists every assigned exam exactly
   * as often as the order does, each under the label of its own slot plus one,
   * slots ascending and names ascending within a slot.
   */
  lemma TimetableOfAssignment(order: seq<Exam>, slots: map<Exam, nat>)
    requires forall v :: v in order ==> v in slots
    ensures multiset(ExamColumn(TimetableData(SlotGroups(order, slots)))) == multiset(order)
    ensures forall i :: 0 <= i < |TimetableData(SlotGroups(order, slots))| ==>
              var row := TimetableData(SlotGroups(order, slots))[i];
              row.exam in order && row.timeSlot == slots[row.exam] + 1
    ensures forall e :: e in order ==> Row(slots[e] + 1, e) in TimetableData(SlotGroups(order, slots))
    ensures Ordered(TimetableData(SlotGroups(order, slots)))
  {
    var groups := SlotGroups(order, slots);
    var rows := TimetableData(groups);
    assert multiset(ExamColumn(rows)) == multiset(order) by {
      SlotGroupsPooled(order, slots);
      TimetableExams(groups);
    }
    assert Ordered(rows) by {
      TimetableOrdered(groups);
    }
    SlotGroupsInverts(order, slots);
    forall i | 0 <= i < |rows| ensures rows[i].exam in order && rows[i].timeSlot == slots[rows[i].exam] + 1 {
      TimetableRowsSound(groups);
      assert RowOf(groups, rows[i]);
    }
    forall e | e in order ensures Row(slots[e] + 1, e) in rows {
      TimetableRowsComplete(groups);
      assert slots[e] in groups;
    }
  }
}
